=== FILE: README.md ===
# GoBrowserAgent command engine, modelled in Dafny

GoBrowserAgent drives a web browser from a small command language. This model covers the engine behind that language:

- **Parser** (`Parser`, `pkg/parser/parser.go`). A command line such as `login https://x username=a password=b` is split on single spaces. The first token, lower-cased, is the action. A second token without `=` is the target. Every later `key=value` token is a parameter, and a later token overwrites an earlier one with the same key.
- **Special parameters.** A unit-less `wait` value gets the unit `s`. For a `form` command, the `field_<name>` parameters are folded into one `fields` parameter of the form `name:value,name:value`.
- **Validator.** It reports the required parameters a command lacks, from a fixed table. `url` is satisfied by either the target or the `url` parameter.
- **Tasks** (`Tasks`, `pkg/task/task.go`). There are seven task types: login, search, form filling, navigation, screenshot, script and wait. Each is a fixed sequence of calls on the browser. The first call that fails ends the task and its error is returned.
- **Task manager.** It keeps an ordered list of tasks and runs every one of them, collecting every error (fail-soft).
- **Dispatcher** (`Executor`, `main.go`). `CommandExecutor.ExecuteCommand` skips blank lines, parses the line and maps the command to one task, with fallbacks:
  - target versus the `url` parameter;
  - a default screenshot path;
  - a bare integer as a number of seconds.

  It checks each command's preconditions before building any task. It rejects unknown actions.
- **Batch scripts** (`Scripts`, `pkg/utils/script.go`). A script file becomes its trimmed, non-blank, non-comment lines, in file order. The runner dispatches them in order and stops at the first failure (fail-fast).

## How the browser is modelled

The browser (`Browser` module) is a capability object with two parts:

- a `trace` field listing every call made on it;
- a fixed oracle `fails(history, call)` that decides whether a call fails, given the calls made before it.

Element handles are values that remember the selector they were found with. Element calls are therefore recorded as `Clear(selector)`, `Input(selector, text)` and `Click(selector)`.

A task's behaviour is stated by its plan: a list of steps, each pairing a call with the error returned when that call fails. The specification function `Run(fails, history, plan)` gives the calls a fail-fast execution makes and the error it returns. Each imperative `Execute…` method is proved to extend the trace by exactly `Run(...).calls` and to return `Run(...).outcome`. The lemmas about `Run` then give the properties the source promises: prefix of the plan, stopping at the first failure, and the error of the failing step.

Go's map iteration order appears in `formatFieldsMap` and in the form task's field loop. It is modelled by a nondeterministic choice of the next key. Those methods return the order they used as a ghost value, and their contracts hold for every order that enumerates the keys.

`time.ParseDuration` and `strconv.Atoi` are parameters of type `string -> Option<int>`. Durations are integer nanoseconds.

## Model

| member | source | states |
|---|---|---|
| Text.Split | pkg/parser/parser.go:39 | `strings.Split` on one separator yields at least one piece and no piece contains the separator |
| Text.JoinSplit | pkg/parser/parser.go:105-111 | joining the pieces of a split with the same separator gives back the original text |
| Text.SplitJoin | main.go:196-205 | splitting a join of separator-free pieces gives back exactly those pieces |
| Text.Cut | pkg/parser/parser.go:56-58 | a two-way `SplitN` exists exactly when the separator occurs; the first piece is free of it and the pieces with the separator rebuild the text |
| Text.CutUnique | main.go:200-202 | the split at the first separator is the only split whose first piece lacks the separator |
| Text.TrimSpace | pkg/utils/script.go:33 | the trimmed text neither starts nor ends with white space |
| Text.TrimSpaceMeaning | pkg/utils/script.go:33 | the trimmed text is a contiguous piece of the input, and only white space is dropped before and after it |
| Text.TrimLeft | pkg/utils/script.go:33 | the result is a suffix of the input, and only white space was removed |
| Text.TrimRight | pkg/utils/script.go:33 | the result is a prefix of the input, and only white space was removed |
| Text.TrimSpaceFixed | pkg/parser/parser.go:74 | a text without surrounding white space is unchanged by trimming |
| Text.TrimSpaceIdempotent | main.go:38 | trimming twice is trimming once |
| Text.TrimSuffix | pkg/parser/parser.go:78 | `strings.TrimSuffix` returns a prefix of the text, and leaves the text unchanged exactly when the suffix is empty or absent |
| Text.EnumerationJoin | pkg/task/task.go:215 | enumerations of disjoint key sets concatenate into an enumeration of their union (map iteration visits each key once) |
| Browser.Browser.Navigate | pkg/browser/browser.go:17 | the call is appended to the trace and its result is the oracle's verdict on it |
| Browser.Browser.WaitLoad | pkg/browser/browser.go:29 | the call is appended to the trace and its result is the oracle's verdict on it |
| Browser.Browser.Find | pkg/browser/browser.go:26 | the call is appended to the trace; the element returned is the one for that selector |
| Browser.Browser.Screenshot | pkg/browser/browser.go:20 | the call is appended to the trace and its result is the oracle's verdict on it |
| Browser.Browser.ExecuteScript | pkg/browser/browser.go:38 | the call is appended to the trace and its result is the oracle's verdict on it |
| Browser.Browser.Clear | pkg/browser/browser.go:50 | the element's clear call is appended to the trace with the element's selector |
| Browser.Browser.Input | pkg/browser/browser.go:47 | the element's input call is appended to the trace with the selector and the text |
| Browser.Browser.Click | pkg/browser/browser.go:44 | the element's click call is appended to the trace with the element's selector |
| Browser.RunCallsPrefix | pkg/task/task.go:61-112 | a fail-fast run makes the calls of a prefix of its plan, in plan order |
| Browser.RunOk | pkg/task/task.go:61-112 | a run succeeds exactly when every planned call succeeded, and then it made every planned call |
| Browser.RunFails | pkg/task/task.go:61-112 | a failing run's last call failed, and the run returns that step's error |
| Browser.RunPrefixSucceeded | pkg/task/task.go:61-112 | every call a run made before its last one succeeded |
| Browser.RunAppend | pkg/task/task.go:203-247 | running two plans in sequence is running the first and, only if it succeeded, the second on the extended trace |
| Browser.Next | pkg/task/task.go:268-276 | after the first call's reply, a run either stops with that step's error or continues with the rest of the plan |
| Parser.LastSetter | pkg/parser/parser.go:53-61 | the index found sets the key (before the first separator), and no later token does |
| Parser.ParamsOfMeaning | pkg/parser/parser.go:53-61 | a key is a parameter exactly when some token sets it; its value is the text after the first `=` of the LAST such token (so it may contain `=`) |
| Parser.Parse | pkg/parser/parser.go:31-67 | parsing never fails; the raw text is kept, the action is the lower-cased first token, and the command is the token-based meaning after the special rules |
| Parser.ParsedMeaning | pkg/parser/parser.go:33-61 | the target is token 1 exactly when it exists and holds no `=`, else empty; a key other than `wait` is present exactly when a later token sets it, with the value after the first `=` of the last such token; for `form` this holds of all keys but `fields` and the `field_` keys, none of which it keeps |
| Parser.WaitRule | pkg/parser/parser.go:72-82 | a trimmed `wait` value that is no duration and lacks `s` becomes the trimmed value plus `s`; otherwise it is untouched; no other key changes, and no key is added or removed |
| Parser.WaitRuleUnit | pkg/parser/parser.go:76-80 | after the rule, the trimmed `wait` value is a duration or ends in `s` |
| Parser.WaitRuleIdempotent | pkg/parser/parser.go:72-82 | applying the `wait` rule twice is applying it once |
| Parser.ApplyWaitRule | pkg/parser/parser.go:72-82 | the in-place update of the `wait` parameter computes exactly the `wait` rule |
| Parser.MoveFields | pkg/parser/parser.go:88-95 | the loop that deletes the `field_` parameters while ranging over the map leaves exactly the other parameters and collects exactly the fields, by name without the prefix |
| Parser.FieldNames | pkg/parser/parser.go:90-92 | a name is a field name exactly when `field_` plus the name is a parameter |
| Parser.Entries | pkg/parser/parser.go:106-109 | one serialized entry per field in the iteration order |
| Parser.EntriesAt | pkg/parser/parser.go:107-108 | entry `i` is `name:value` for the `i`-th field visited |
| Parser.FormRule | pkg/parser/parser.go:85-101 | no `field_` key remains; `fields` is set to the serialized fields when there was one; every other key keeps its value and no other key appears |
| Parser.ProcessSpecialParams | pkg/parser/parser.go:70-102 | the result is the `wait` rule for every action, then the `form` rule for `form`, serialized in the key order the loop happened to use |
| Parser.FormatFieldsMap | pkg/parser/parser.go:105-111 | the result joins with `,` one `name:value` entry per field, in an order that lists every field once |
| Parser.NewCommandValidator | pkg/parser/parser.go:119-131 | the table covers exactly `login`, `search`, `form` and `wait`, and only `form` requires `url` |
| Parser.AbsentMeaning | pkg/parser/parser.go:144-148 | a name is reported absent exactly when the table lists it, it is not `url` and its key is missing (an empty value counts as present) |
| Parser.MissingMeaning | pkg/parser/parser.go:134-156 | nothing is missing for an action outside the table; a non-`url` name is missing exactly when listed and absent; `url` is missing exactly when listed and both target and `url` parameter are empty |
| Parser.Validate | pkg/parser/parser.go:134-156 | the loop returns the report `MissingOf`: the absent names in table order, then `url` last when it is missing |
| Parser.Contains | pkg/parser/parser.go:159-166 | `contains(slice, str)` holds exactly when `str` is an element of `slice` (main.go's `contains` at lines 279-286 is the same loop) |
| Parser.LLMParse | pkg/parser/parser.go:182-187 | the LLM parser returns exactly what the simple parser returns |
| Tasks.NameIdentifiesKind | pkg/task/task.go:47-342 | two tasks with the same name are of the same type: each constructor gives a distinct name |
| Tasks.NewLoginTask | pkg/task/task.go:47-58 | the task holds the given URL and credentials; `GetName`/`GetDescription` return the login constants |
| Tasks.NewSearchTask | pkg/task/task.go:124-136 | the task holds the given fields; name and description are the search constants |
| Tasks.NewFormFillTask | pkg/task/task.go:188-200 | the task holds the given fields; name and description are the form constants |
| Tasks.NewNavigationTask | pkg/task/task.go:256-265 | the task holds the URL; name and description are the navigation constants |
| Tasks.NewScreenshotTask | pkg/task/task.go:285-294 | the task holds the path; name and description are the screenshot constants |
| Tasks.NewScriptTask | pkg/task/task.go:309-318 | the task holds the code; name and description are the script constants |
| Tasks.NewWaitTask | pkg/task/task.go:333-342 | the task holds the duration; name and description are the wait constants |
| Tasks.FillSteps | pkg/task/task.go:215-231 | filling the fields takes three calls (find, clear, input) per field |
| Tasks.FillStepsAppend | pkg/task/task.go:215-231 | filling two lists of fields in turn is filling their concatenation |
| Tasks.ExecuteLogin | pkg/task/task.go:61-112 | the trace grows by the fail-fast run of the 11-call login plan (navigate, wait, user name find/clear/input, password find/clear/input, button find/click, wait) and the error is that run's |
| Tasks.ExecuteSearch | pkg/task/task.go:139-176 | the trace grows by the fail-fast run of the 8-call search plan, and the error is that run's |
| Tasks.FillField | pkg/task/task.go:216-230 | find, clear and input one field; on success the fill is clean so far, on failure the form's whole run stops here with an error naming the selector |
| Tasks.SubmitForm | pkg/task/task.go:234-246 | clicking the submit button only when one is named, then the final wait, as a fail-fast run |
| Tasks.ExecuteFormFill | pkg/task/task.go:203-247 | for the order in which the field loop visited the keys (every key once), the trace grows by the fail-fast run of the form plan and the error is that run's |
| Tasks.ExecuteNavigation | pkg/task/task.go:268-276 | the trace grows by the fail-fast run of navigate then wait |
| Tasks.ExecuteScreenshot | pkg/task/task.go:297-300 | the trace grows by the one screenshot call, whose verdict is returned |
| Tasks.ExecuteScriptTask | pkg/task/task.go:321-324 | the trace grows by the one script call, whose verdict is returned |
| Tasks.ExecuteWait | pkg/task/task.go:345-349 | waiting returns nil |
| Tasks.Execute | pkg/task/task.go:61-349 | any task extends the trace by the fail-fast run of its plan and returns that run's error |
| Tasks.NavigationStopsEarly | pkg/task/task.go:270-272 | when `Navigate` fails, no `WaitLoad` is made and the navigation error is returned |
| Tasks.SingleCallTasks | pkg/task/task.go:297-349 | screenshot and script tasks make exactly their one call and return its result; a wait task makes no call and succeeds |
| Tasks.FormSelectorUnused | pkg/task/task.go:203-247 | the form selector plays no part in what a form task does |
| Tasks.FillStepsFailures | pkg/task/task.go:215-231 | every field step fails with an error naming a field of the form, and none clicks |
| Tasks.FormStepFailures | pkg/task/task.go:203-247 | every step of the form plan fails with a page, field or submit error; without a submit button no step clicks |
| Tasks.FormErrors | pkg/task/task.go:203-247 | a failing form task returns a page error, an error naming one of its field selectors, or a submit-button error |
| Tasks.NoSubmitNoClick | pkg/task/task.go:234-243 | without a submit button, a form task never clicks |
| Tasks.FormEndsWithWait | pkg/task/task.go:245-246 | a successful form task's last call is the final page load, with or without a submit button |
| Tasks.Failures | pkg/task/task.go:369-379 | at most one error per task run |
| Tasks.FailuresAppend | pkg/task/task.go:372-376 | the collected errors of consecutive runs are the errors of each part, in task order |
| Tasks.FailuresEmpty | pkg/task/task.go:369-379 | no error is collected exactly when every task succeeded |
| Tasks.TaskRunsExecutesTasks | pkg/task/task.go:373 | the task semantics built from the plans agrees with `Execute` |
| Tasks.RanStep | pkg/task/task.go:372-376 | running task `i` with a fitting iteration order after the first `i` extends the record by one run on the current trace and adds its error exactly when it failed |
| Tasks.RanAt | pkg/task/task.go:372-376 | run `i` of the record is task `i` executed, with an iteration order that fits it, on the trace left by runs `0..i-1` |
| Tasks.RanRuns | pkg/task/task.go:369-379 | for any semantics agreeing with `Execute`, run `i` of the record is the fail-fast run of task `i`'s plan on the trace left by runs `0..i-1` |
| Tasks.ExecuteStep | pkg/task/task.go:373 | executing one task picks an iteration order that fits it and is a step of any semantics that agrees with `Execute` |
| Tasks.ExecuteNext | pkg/task/task.go:372-376 | one loop iteration runs the next task, with an iteration order that fits it, on the current trace and appends its error when it fails |
| Tasks.TaskManager.constructor | pkg/task/task.go:357-362 | a new manager has no tasks |
| Tasks.TaskManager.AddTask | pkg/task/task.go:364-366 | the task is appended at the end; earlier tasks stay in place |
| Tasks.TaskManager.ClearTasks | pkg/task/task.go:382-384 | the list is empty afterwards |
| Tasks.TaskManager.ExecuteTasks | pkg/task/task.go:369-379 | every task is executed exactly once, in list order, each on the trace the previous ones left, even after failures; the result is the errors of the failing tasks, in task order |
| Executor.Wrap64 | main.go:129 | the result is an `int64` value congruent to the exact product modulo 2^64 (Go's wrap-around) |
| Executor.Wrap64InRange | main.go:129 | a product that fits in `int64` is not changed |
| Executor.ResolveDurationMeaning | main.go:124-134 | a duration text is invalid exactly when both parsers reject it; a parsed duration wins; otherwise an integer n means n seconds |
| Executor.FieldsFromMeaning | main.go:196-205 | a name is a field exactly when some piece names it before a `:`; its value is the text after the first `:` of the LAST such piece, and pieces without `:` contribute nothing |
| Executor.FieldsFromEntries | main.go:196-205 | reading back serialized entries whose names lack `:` recovers each listed field with its value |
| Executor.FieldsRoundTrip | pkg/parser/parser.go:105-111 | decoding `formatFieldsMap`'s output recovers the field map when names hold no `,` or `:` and values hold no `,` |
| Executor.CommaInValueBreaksRoundTrip | pkg/parser/parser.go:108 | a value holding `,` is cut short by the dispatcher's decoding: `a:x,y` comes back as `a:x` |
| Executor.DecideUnknown | main.go:245-257 | an action the dispatcher does not know is an unknown-command error; `exit`, `quit` and `help` (and only they) do nothing |
| Executor.DecideNavigate | main.go:92-112 | `go`/`navigate` fails exactly when both the target and the `url` parameter are empty, and otherwise runs one navigation to the target, else the parameter |
| Executor.DecideLogin | main.go:51-63 | `login` runs exactly when validation reports nothing and the target is non-empty; its URL is always the target and its credentials are the `username` and `password` parameters; a rejection flags a missing target and which credentials validation found missing |
| Executor.DecideSearch | main.go:151-169 | `search` runs exactly when validation passes and URL, input and button are all non-empty, with those values |
| Executor.DecideForm | main.go:180-212 | `form` needs a URL and at least one decoded field, and does not consult the validator; the task's URL is the target, else the `url` parameter, with the `form` selector, the decoded fields and the `submit` button |
| Executor.DecideWait | main.go:114-137 | `wait` takes `duration`, else the target; empty is an error; a parsed duration is used, else an integer of seconds, else an invalid-duration error |
| Executor.DecideScreenshot | main.go:74-81 | `screenshot` always runs, with the `path` parameter or `screenshot.png` |
| Executor.DecideScript | main.go:223-234 | `script` fails exactly when both target and `code` are empty, else runs the target, else the parameter |
| Executor.DecisionRunMeaning | main.go:63-66 | only a launched task makes calls, and only those of its plan; a rejected command returns its error; a task failure is reported as that task's error |
| Executor.CommandExecutor.constructor | main.go:27-33 | the executor holds the given browser, validator and duration readers |
| Executor.CommandExecutor.RunTask | main.go:63-66 | the task's run extends the trace, and its error is tagged with the task's type |
| Executor.CommandExecutor.ReadFields | main.go:196-205 | the loop builds exactly the decoded field map: pieces without `:` dropped, later duplicates overwrite |
| Executor.CommandExecutor.Dispatch | main.go:50-258 | the switch extends the trace and returns the error exactly as the decision for the command prescribes |
| Executor.CommandExecutor.ExecuteCommand | main.go:36-261 | a blank command makes no call and returns nil; any other is parsed and dispatched, and the trace and result are those of its decision |
| Scripts.CommandsOfLine | pkg/utils/script.go:33-40 | a line contributes its trimmed text, or nothing when that is blank or a `#`/`//` comment |
| Scripts.CommandsOfAppend | pkg/utils/script.go:31-41 | the commands of consecutive lines are each part's commands, in file order |
| Scripts.CommandsWellFormed | pkg/utils/script.go:33-40 | every loaded command is non-empty, has no surrounding white space and is not a comment |
| Scripts.LoadScript | pkg/utils/script.go:17-48 | an unopenable or unreadable file gives an error naming it and no script; otherwise the script holds the file name unchanged and the filtered commands of its lines, in order |
| Scripts.ExecutorSemanticsExecutesCommands | pkg/utils/script.go:51-54 | the semantics built from the dispatcher agrees with `ExecuteCommand` |
| Scripts.DispatchedStep | pkg/utils/script.go:62-70 | dispatching command `i` with fitting iteration orders after the first `i` extends the record by one run on the current trace |
| Scripts.DispatchedAt | pkg/utils/script.go:62-70 | run `i` of the record is command `i` executed, with iteration orders that fit it, on the trace left by commands `0..i-1` |
| Scripts.DispatchedRuns | pkg/utils/script.go:62-70 | for any semantics agreeing with `ExecuteCommand`, run `i` of the record is `CommandRun` of command `i` on the trace left by commands `0..i-1` |
| Scripts.DispatchedUnique | pkg/utils/script.go:62-70 | the record of a run is determined by the commands, the starting trace and the iteration orders chosen for each command |
| Scripts.AllOkMeaning | pkg/utils/script.go:62-75 | the all-succeeded record means every dispatched command returned nil |
| Scripts.StopsAt | pkg/utils/script.go:67-69 | a failing command after successful ones ends the run with an error naming that command |
| Scripts.Echoes | pkg/utils/script.go:58-65 | the progress after `n` commands has the header and one line per command |
| Scripts.EchoesMeaning | pkg/utils/script.go:58-65 | the header names the file and the command count; line `i+1` announces command `i` as number `i+1` of the total |
| Scripts.Announce | pkg/utils/script.go:63-65 | a progress line is added only in verbose mode |
| Scripts.RunCommand | pkg/utils/script.go:63-69 | one iteration announces and dispatches the next command, with iteration orders that fit it, on the current trace; a failure yields an error naming that command after commands that all succeeded |
| Scripts.ExecuteScript | pkg/utils/script.go:57-76 | commands are dispatched strictly in order, each on the trace the previous ones left; the run returns nil exactly when all were dispatched and succeeded, and otherwise stops right after the first failing command with an error naming it; `verbose` only changes the printed progress |

## Left out

- Logging, the `Interactive` console messages and the error message texts are not modelled. Logging calls are no-ops. Errors are kinds carrying the payloads that matter: the command text for a script error, the selector for a form error, and the missing-parameter flags.
- `main`, the read-eval loop on standard input, flag parsing and `printHelp` are out of scope. The `help` command is modelled as doing nothing, because printing is not modelled.
- The browser implementation on go-rod is not part of this model. The interface methods the engine never calls (`GetTitle`, `GetURL`, `Close`, `GetText`, `IsVisible`) are also not modelled.
- `time.ParseDuration` and `strconv.Atoi` are abstract parameters, not their grammars. The sleep of the wait task is not modelled. `ExecuteWait` only returns nil.
- Text.ToLower: maps ASCII letters only. Go's `strings.ToLower` also maps other Unicode letters.
- Scripts.LoadScript:
  - Reading is modelled as `Readable(content)`, split at line feeds and then trimmed.
  - The scanner's removal of `\r` is subsumed by the trimming.
  - Any scanner error, including an over-long line, is the single `CannotRead` case. Its result (an error naming the file, no script) is the same.
- The `len(parts) == 0` branch of `SimpleParser.Parse` cannot be taken, because `strings.Split` never returns an empty list. The parse-error branch of `ExecuteCommand` is unreachable because `SimpleParser.Parse` has no path that returns a non-nil error: its only early return, for an empty token list, returns no error either.
- A task does not store the browser it runs on. `Execute` takes the browser as a parameter instead. As a consequence, `Tasks.TaskManager.ExecuteTasks` runs all of a manager's tasks on one browser and one trace. A Go manager may hold tasks built with different browsers, and that mix is not modelled.
- Scripts.ExecuteScript: stated for any command semantics that agrees with `CommandExecutor.ExecuteCommand`, the program's only `ScriptExecutor`. `Scripts.DispatchedRuns` turns its record into the `CommandRun` of each command. Other implementations of that interface are not modelled.
- Tasks.TaskManager.ExecuteTasks: stated for any task semantics that agrees with `Execute`, the way the Go `Task` interface dispatches on the task's type. `Tasks.RanRuns` turns its record into the run of each task's plan.
- Scripts.ExecuteScript: the verbose output is a returned list of progress lines, not console text.

=== FILE: browser.dfy ===
/**
 * The browser capability (the `Browser` and `Element` interfaces), seen from
 * the engine: every call is recorded in a trace, and whether a call fails is
 * decided by an oracle from the calls made before it and the call itself.
 * Also the fail-fast semantics of a fixed sequence of calls.
 */
module Browser {
  import opened Effects

  /** An element handle returned by `Find`. */
  datatype Element = Element(selector: string)

  /** The answer the capability gives to call `c` after the calls `history`. */
  function Reply(fails: (seq<Call>, Call) -> bool, history: seq<Call>, c: Call): Outcome
  {
    if fails(history, c) then Fail(CallFailed(c)) else Ok
  }

  class Browser {
    /** Every call made so far, in order. */
    var trace: seq<Call>
    /** Whether a call fails, given the calls made before it. */
    const fails: (seq<Call>, Call) -> bool

    constructor (fails: (seq<Call>, Call) -> bool)
      ensures trace == [] && this.fails == fails
    {
      trace := [];
      this.fails := fails;
    }

    method Perform(c: Call) returns (r: Outcome)
      modifies this
      ensures trace == old(trace) + [c]
      ensures r == Reply(fails, old(trace), c)
    {
      r := Reply(fails, trace, c);
      trace := trace + [c];
    }

    method Navigate(url: string) returns (r: Outcome)
      modifies this
      ensures trace == old(trace) + [Call.Navigate(url)]
      ensures r == Reply(fails, old(trace), Call.Navigate(url))
    {
      r := Perform(Call.Navigate(url));
    }

    method WaitLoad() returns (r: Outcome)
      modifies this
      ensures trace == old(trace) + [Call.WaitLoad]
      ensures r == Reply(fails, old(trace), Call.WaitLoad)
    {
      r := Perform(Call.WaitLoad);
    }

    method Find(selector: string) returns (e: Element, r: Outcome)
      modifies this
      ensures trace == old(trace) + [Call.Find(selector)]
      ensures r == Reply(fails, old(trace), Call.Find(selector))
      ensures e == Element(selector)
    {
      r := Perform(Call.Find(selector));
      e := Element(selector);
    }

    method Screenshot(path: string) returns (r: Outcome)
      modifies this
      ensures trace == old(trace) + [Call.Screenshot(path)]
      ensures r == Reply(fails, old(trace), Call.Screenshot(path))
    {
      r := Perform(Call.Screenshot(path));
    }

    method ExecuteScript(code: string) returns (r: Outcome)
      modifies this
      ensures trace == old(trace) + [Call.ExecuteScript(code)]
      ensures r == Reply(fails, old(trace), Call.ExecuteScript(code))
    {
      r := Perform(Call.ExecuteScript(code));
    }

    /** `Element.Clear`. */
    method Clear(e: Element) returns (r: Outcome)
      modifies this
      ensures trace == old(trace) + [Call.Clear(e.selector)]
      ensures r == Reply(fails, old(trace), Call.Clear(e.selector))
    {
      r := Perform(Call.Clear(e.selector));
    }

    /** `Element.Input`. */
    method Input(e: Element, text: string) returns (r: Outcome)
      modifies this
      ensures trace == old(trace) + [Call.Input(e.selector, text)]
      ensures r == Reply(fails, old(trace), Call.Input(e.selector, text))
    {
      r := Perform(Call.Input(e.selector, text));
    }

    /** `Element.Click`. */
    method Click(e: Element) returns (r: Outcome)
      modifies this
      ensures trace == old(trace) + [Call.Click(e.selector)]
      ensures r == Reply(fails, old(trace), Call.Click(e.selector))
    {
      r := Perform(Call.Click(e.selector));
    }
  }

  /** One planned call and the error a task reports when it fails. */
  datatype Step = Step(call: Call, onFail: Error)

  /** The usual step: a failing call's error is returned unchanged. */
  function Plain(c: Call): Step
  {
    Step(c, CallFailed(c))
  }

  function Calls(plan: seq<Step>): (cs: seq<Call>)
    ensures |cs| == |plan|
  {
    if plan == [] then [] else [plan[0].call] + Calls(plan[1..])
  }

  /** What running some calls did: the calls made and the resulting error value. */
  datatype Effect = Effect(calls: seq<Call>, outcome: Outcome)

  /**
   * Fail-fast execution of a plan after the calls `history`: the steps are called
   * in order until one fails; that step's error is the result and no later
   * step is called.
   */
  function Run(fails: (seq<Call>, Call) -> bool, history: seq<Call>, plan: seq<Step>): (e: Effect)
    ensures |e.calls| <= |plan|
    decreases |plan|
  {
    if plan == [] then Effect([], Ok)
    else if fails(history, plan[0].call) then Effect([plan[0].call], Fail(plan[0].onFail))
    else
      var rest := Run(fails, history + [plan[0].call], plan[1..]);
      Effect([plan[0].call] + rest.calls, rest.outcome)
  }

  /** The calls made after `history` by the first `k` steps of `plan`, if all succeed. */
  function Before(history: seq<Call>, plan: seq<Step>, k: nat): seq<Call>
    requires k <= |plan|
  {
    history + Calls(plan[..k])
  }

  /** `Run` makes the calls of a prefix of the plan, in plan order. */
  lemma {:induction false} RunCallsPrefix(fails: (seq<Call>, Call) -> bool, history: seq<Call>, plan: seq<Step>)
    ensures var e := Run(fails, history, plan);
            e.calls == Calls(plan[..|e.calls|])
    decreases |plan|
  {
    if plan != [] && !fails(history, plan[0].call) {
      var h' := history + [plan[0].call];
      var m := |Run(fails, h', plan[1..]).calls|;
      RunCallsPrefix(fails, h', plan[1..]);
      assert plan[..m + 1] == [plan[0]] + plan[1..][..m];
    } else if plan != [] {
      assert plan[..1] == [plan[0]];
    }
  }

  /** `Run` succeeds exactly when every step succeeded, and then it made every call. */
  lemma {:induction false} RunOk(fails: (seq<Call>, Call) -> bool, history: seq<Call>, plan: seq<Step>)
    ensures var e := Run(fails, history, plan);
            e.outcome.Ok? <==> forall j :: 0 <= j < |plan| ==> !fails(Before(history, plan, j), plan[j].call)
    ensures Run(fails, history, plan).outcome.Ok? ==> |Run(fails, history, plan).calls| == |plan|
    decreases |plan|
  {
    if plan != [] {
      var c := plan[0].call;
      var h' := history + [c];
      assert Before(history, plan, 0) == history;
      RunOk(fails, h', plan[1..]);
      forall j | 0 <= j < |plan| - 1
        ensures Before(history, plan, j + 1) == Before(h', plan[1..], j)
      {
        assert plan[..j + 1] == [plan[0]] + plan[1..][..j];
      }
    }
  }

  /** A failing `Run` returned the error planned for its last call, which failed. */
  lemma {:induction false} RunFails(fails: (seq<Call>, Call) -> bool, history: seq<Call>, plan: seq<Step>)
    requires Run(fails, history, plan).outcome.Fail?
    ensures var n := |Run(fails, history, plan).calls|;
            && n > 0
            && fails(Before(history, plan, n - 1), plan[n - 1].call)
            && Run(fails, history, plan).outcome.error == plan[n - 1].onFail
    decreases |plan|
  {
    var c := plan[0].call;
    var h' := history + [c];
    if !fails(history, c) {
      var rest := Run(fails, h', plan[1..]);
      var m := |rest.calls|;
      RunFails(fails, h', plan[1..]);
      assert plan[..m] == [plan[0]] + plan[1..][..m - 1];
      assert Before(history, plan, m) == Before(h', plan[1..], m - 1);
    } else {
      assert Before(history, plan, 0) == history;
    }
  }

  /** Every call `Run` made before its last one succeeded. */
  lemma {:induction false} RunPrefixSucceeded(fails: (seq<Call>, Call) -> bool, history: seq<Call>, plan: seq<Step>, j: nat)
    requires j + 1 < |Run(fails, history, plan).calls|
    ensures !fails(Before(history, plan, j), plan[j].call)
    decreases |plan|
  {
    var c := plan[0].call;
    var h' := history + [c];
    if j == 0 {
      assert Before(history, plan, 0) == history;
    } else {
      RunPrefixSucceeded(fails, h', plan[1..], j - 1);
      assert plan[..j] == [plan[0]] + plan[1..][..j - 1];
      assert Before(history, plan, j) == Before(h', plan[1..], j - 1);
    }
  }

  lemma {:induction false} CallsAt(plan: seq<Step>, i: nat)
    requires i < |plan|
    ensures Calls(plan)[i] == plan[i].call
  {
    if i > 0 {
      CallsAt(plan[1..], i - 1);
    }
  }

  lemma {:induction false} CallsAppend(p: seq<Step>, q: seq<Step>)
    ensures Calls(p + q) == Calls(p) + Calls(q)
    decreases |p|
  {
    if p == [] {
      assert p + q == q;
    } else {
      assert (p + q)[1..] == p[1..] + q;
      CallsAppend(p[1..], q);
    }
  }

  /** Running two plans one after the other is running the first and, if it succeeded, the second. */
  lemma {:induction false} RunAppend(fails: (seq<Call>, Call) -> bool, history: seq<Call>, p: seq<Step>, q: seq<Step>)
    requires Run(fails, history, p).outcome.Ok?
    ensures var rest := Run(fails, history + Calls(p), q);
            Run(fails, history, p + q) == Effect(Calls(p) + rest.calls, rest.outcome)
    decreases |p|
  {
    if p != [] {
      var c := p[0].call;
      var h' := history + [c];
      assert (p + q)[0] == p[0];
      assert (p + q)[1..] == p[1..] + q;
      assert !fails(history, c);
      RunAppend(fails, h', p[1..], q);
      assert Calls(p) == [c] + Calls(p[1..]);
      assert h' + Calls(p[1..]) == history + Calls(p);
    } else {
      assert p + q == q;
      assert history + Calls(p) == history;
    }
  }

  /** A plan whose every step succeeded so far. */
  ghost predicate Clean(fails: (seq<Call>, Call) -> bool, history: seq<Call>, done: seq<Step>)
  {
    Run(fails, history, done) == Effect(Calls(done), Ok)
  }

  lemma CleanStart(fails: (seq<Call>, Call) -> bool, history: seq<Call>)
    ensures Clean(fails, history, [])
    ensures history + Calls([]) == history
  {
    assert history + [] == history;
  }

  /** A succeeding call extends a clean prefix. */
  lemma Progress(fails: (seq<Call>, Call) -> bool, history: seq<Call>, done: seq<Step>, s: Step)
    requires Clean(fails, history, done)
    requires !fails(history + Calls(done), s.call)
    ensures Clean(fails, history, done + [s])
  {
    RunAppend(fails, history, done, [s]);
    CallsAppend(done, [s]);
  }

  /** A failing call after a clean prefix ends the whole plan with that step's error. */
  lemma Abort(fails: (seq<Call>, Call) -> bool, history: seq<Call>, done: seq<Step>, s: Step, rest: seq<Step>)
    requires Clean(fails, history, done)
    requires fails(history + Calls(done), s.call)
    ensures Run(fails, history, done + [s] + rest) == Effect(Calls(done) + [s.call], Fail(s.onFail))
  {
    assert done + [s] + rest == done + ([s] + rest);
    RunAppend(fails, history, done, [s] + rest);
  }

  /**
   * One call made after a clean prefix `done`: if it fails, every plan that continues
   * `done` with this step stops right there with the step's error; if it succeeds,
   * the prefix grows by the step.
   */
  lemma Take(fails: (seq<Call>, Call) -> bool, history: seq<Call>, done: seq<Step>, s: Step, rest: seq<Step>, r: Outcome)
    requires Clean(fails, history, done)
    requires r == Reply(fails, history + Calls(done), s.call)
    ensures r.Fail? ==> history + Run(fails, history, done + [s] + rest).calls == history + Calls(done) + [s.call]
    ensures r.Fail? ==> Run(fails, history, done + [s] + rest).outcome == Fail(s.onFail)
    ensures r.Ok? ==> Clean(fails, history, done + [s])
    ensures r.Ok? ==> history + Calls(done) + [s.call] == history + Calls(done + [s])
  {
    if r.Fail? {
      Abort(fails, history, done, s, rest);
    } else {
      Progress(fails, history, done, s);
      CallsAppend(done, [s]);
    }
  }

  /** After a clean prefix, running the plan is running the rest of it from there. */
  lemma CleanThen(fails: (seq<Call>, Call) -> bool, history: seq<Call>, done: seq<Step>, rest: seq<Step>)
    requires Clean(fails, history, done)
    ensures After(fails, history, done + rest) == After(fails, history + Calls(done), rest)
    ensures Run(fails, history, done + rest).outcome == Run(fails, history + Calls(done), rest).outcome
  {
    RunAppend(fails, history, done, rest);
    assert history + (Calls(done) + Run(fails, history + Calls(done), rest).calls)
        == history + Calls(done) + Run(fails, history + Calls(done), rest).calls;
  }

  /** A clean prefix that is the whole plan: the run succeeds. */
  lemma Finish(fails: (seq<Call>, Call) -> bool, history: seq<Call>, plan: seq<Step>)
    requires Clean(fails, history, plan)
    ensures history + Run(fails, history, plan).calls == history + Calls(plan)
    ensures Run(fails, history, plan).outcome == Ok
  {
  }

  /** The trace after running `plan` on top of `history`. */
  ghost function After(fails: (seq<Call>, Call) -> bool, history: seq<Call>, plan: seq<Step>): seq<Call>
  {
    history + Run(fails, history, plan).calls
  }

  /**
   * Running a plan is making its first call and then, if that call succeeded,
   * running the rest of the plan on top of the longer history.
   */
  lemma Next(fails: (seq<Call>, Call) -> bool, history: seq<Call>, plan: seq<Step>, r: Outcome)
    requires plan != []
    requires r == Reply(fails, history, plan[0].call)
    ensures r.Fail? ==> After(fails, history, plan) == history + [plan[0].call]
    ensures r.Fail? ==> Run(fails, history, plan).outcome == Fail(plan[0].onFail)
    ensures r.Ok? ==> After(fails, history, plan) == After(fails, history + [plan[0].call], plan[1..])
    ensures r.Ok? ==> Run(fails, history, plan).outcome == Run(fails, history + [plan[0].call], plan[1..]).outcome
    ensures r.Ok? && |plan| == 1 ==> After(fails, history, plan) == history + [plan[0].call]
    ensures r.Ok? && |plan| == 1 ==> Run(fails, history, plan).outcome == Ok
  {
    var c := plan[0].call;
    if r.Ok? {
      var rest := Run(fails, history + [c], plan[1..]);
      assert history + ([c] + rest.calls) == history + [c] + rest.calls;
      if |plan| == 1 {
        assert plan[1..] == [];
        assert history + [c] + [] == history + [c];
      }
    }
  }

  /** The calls of several runs, one after the other. */
  function AllCalls(effects: seq<Effect>): seq<Call>
  {
    if effects == [] then [] else AllCalls(effects[..|effects| - 1]) + effects[|effects| - 1].calls
  }
}

=== FILE: effects.dfy ===
/**
 * The vocabulary shared by every component: the calls that can be made on the
 * browser capability, the errors the engine reports, and the outcome of an
 * operation that returns a Go `error` (nil or not).
 */
module Effects {

  /** One call on the browser capability or on an element it returned.
      An element is identified by the selector it was found with. */
  datatype Call =
    | Navigate(url: string)
    | WaitLoad
    | Find(selector: string)
    | Clear(selector: string)
    | Input(selector: string, text: string)
    | Click(selector: string)
    | Screenshot(path: string)
    | ExecuteScript(code: string)

  /** The task variants, as the dispatcher names them when a task fails. */
  datatype TaskKind = LoginKind | ScreenshotKind | NavigationKind | WaitKind | SearchKind | FormKind | ScriptKind

  datatype Error =
      /** A capability call returned an error. */
    | CallFailed(call: Call)
      /** A form field could not be found, cleared or filled. */
    | FieldFailed(selector: string, cause: Error)
      /** The submit button of a form could not be found. */
    | SubmitNotFound(selector: string, cause: Error)
      /** The submit button of a form could not be clicked. */
    | SubmitClickFailed(cause: Error)
      /** A login command lacks a URL, a user name or a password (one flag each). */
    | LoginMissing(url: bool, username: bool, password: bool)
      /** A search command lacks a URL, a query, an input selector or a button selector. */
    | SearchMissing(url: bool, query: bool, input: bool, button: bool)
    | MissingUrl
    | MissingDuration
    | InvalidDuration(text: string)
    | FormMissingUrl
    | FormNeedsField
    | MissingScriptCode
    | UnknownCommand(action: string)
      /** A dispatched task failed. */
    | TaskFailed(kind: TaskKind, cause: Error)
    | ScriptOpenFailed(filename: string)
    | ScriptReadFailed(filename: string)
      /** A script command failed; carries the command's text. */
    | ScriptCommandFailed(command: string, cause: Error)

  /** A Go `error` result: nil or an error. */
  datatype Outcome = Ok | Fail(error: Error)
}

=== FILE: executor.dfy ===
/**
 * The command dispatcher, `CommandExecutor.ExecuteCommand`: one line of the command
 * language is parsed, checked, and turned into at most one task, which runs against
 * the browser. Every check happens before the task is built, so a rejected command
 * makes no browser call.
 */
module Executor {
  import opened Text
  import opened Effects
  import opened Browser
  import opened Parser
  import opened Tasks

  const DefaultScreenshotPath: string := "screenshot.png"

  /** `time.Second`, in nanoseconds. */
  const Second: int := 1_000_000_000

  const Int64Min: int := -0x8000_0000_0000_0000
  const Int64Modulus: int := 0x1_0000_0000_0000_0000

  /** Two's-complement wrap-around to 64 bits, as Go's `int64` arithmetic does. */
  function Wrap64(n: int): (w: int)
    ensures Int64Min <= w < Int64Min + Int64Modulus
    ensures (w - n) % Int64Modulus == 0
  {
    (n - Int64Min) % Int64Modulus + Int64Min
  }

  /** A value that fits in an `int64` is left alone. */
  lemma Wrap64InRange(n: int)
    requires Int64Min <= n < Int64Min + Int64Modulus
    ensures Wrap64(n) == n
  {
  }

  /**
   * The duration of a `wait` command: what `time.ParseDuration` makes of the text, or,
   * when that fails, a whole number of seconds read by `strconv.Atoi` (the product
   * wraps like Go's `time.Duration`); `None` when neither reads the text.
   */
  function ResolveDuration(text: string, parseDuration: string -> Option<int>, atoi: string -> Option<int>): Option<int>
  {
    match parseDuration(text)
    case Some(d) => Some(d)
    case None =>
      match atoi(text)
      case Some(num) => Some(Wrap64(num * Second))
      case None => None
  }

  lemma ResolveDurationMeaning(text: string, parseDuration: string -> Option<int>, atoi: string -> Option<int>)
    ensures ResolveDuration(text, parseDuration, atoi).None? <==> parseDuration(text).None? && atoi(text).None?
    ensures parseDuration(text).Some? ==> ResolveDuration(text, parseDuration, atoi) == parseDuration(text)
    ensures parseDuration(text).None? && atoi(text).Some? && Int64Min <= atoi(text).value * Second < Int64Min + Int64Modulus
            ==> ResolveDuration(text, parseDuration, atoi) == Some(atoi(text).value * Second)
  {
    if parseDuration(text).None? && atoi(text).Some? && Int64Min <= atoi(text).value * Second < Int64Min + Int64Modulus {
      Wrap64InRange(atoi(text).value * Second);
    }
  }

  // ---------------------------------------------------------------------------
  // The `fields` parameter of a `form` command.

  /**
   * The fields read from the pieces of the `fields` parameter: each piece is cut at its
   * first ':', a piece without ':' is dropped, and a later name overwrites an earlier one.
   */
  function FieldsFrom(pairs: seq<string>): map<string, string>
  {
    if pairs == [] then map[]
    else
      var n := |pairs| - 1;
      var kv := Cut(pairs[n], ':');
      if kv.Some? then FieldsFrom(pairs[..n])[kv.value.0 := kv.value.1] else FieldsFrom(pairs[..n])
  }

  /**
   * A name is a field exactly when some piece names it before a ':', and its value is
   * what the LAST such piece puts after its first ':'.
   */
  lemma {:induction false} FieldsFromMeaning(pairs: seq<string>, k: string)
    ensures k in FieldsFrom(pairs) <==> LastSetter(pairs, ':', k) >= 0
    ensures k in FieldsFrom(pairs) ==> FieldsFrom(pairs)[k] == Cut(pairs[LastSetter(pairs, ':', k)], ':').value.1
  {
    if pairs != [] {
      var n := |pairs| - 1;
      FieldsFromMeaning(pairs[..n], k);
    }
  }

  /** The fields of a `form` command, read from its `fields` parameter split on ','. */
  function FormFields(fieldsStr: string): map<string, string>
  {
    if fieldsStr == "" then map[] else FieldsFrom(Split(fieldsStr, ','))
  }

  /** Reading serialized entries back gives every field in the order, with its value. */
  lemma {:induction false} FieldsFromEntries(fields: map<string, string>, order: seq<string>)
    requires forall i :: 0 <= i < |order| ==> order[i] in fields && ':' !in order[i]
    ensures FieldsFrom(Entries(fields, order)) == map k | k in order && k in fields :: fields[k]
  {
    if order != [] {
      var n := |order| - 1;
      var name := order[n];
      var init := Entries(fields, order[..n]);
      var entry := Entry(name, fields[name]);
      assert Entries(fields, order) == init + [entry];
      assert (init + [entry])[..|init|] == init;
      CutUnique(entry, ':', name, fields[name]);
      FieldsFromEntries(fields, order[..n]);
      assert order == order[..n] + [name];
    }
  }

  /**
   * The serialization of the parser and the decoding of the dispatcher are inverse:
   * for names without ',' or ':' and values without ',', in any iteration order.
   */
  lemma FieldsRoundTrip(fields: map<string, string>, order: seq<string>)
    requires IsEnumeration(order, fields.Keys)
    requires forall k :: k in fields ==> ',' !in k && ':' !in k && ',' !in fields[k]
    ensures FormFields(FormatFields(fields, order)) == fields
  {
    var entries := Entries(fields, order);
    if order == [] {
      assert fields == map[];
    } else {
      forall i | 0 <= i < |entries|
        ensures ',' !in entries[i]
      {
        EntriesAt(fields, order, i);
      }
      SplitJoin(entries, ',');
      EntriesAt(fields, order, 0);
      assert |Join(entries, ',')| >= |entries[0]| > 0;
      FieldsFromEntries(fields, order);
    }
  }

  /** A value holding ',' does not survive the round trip. */
  lemma CommaInValueBreaksRoundTrip()
    ensures FormFields(FormatFields(map["a" := "x,y"], ["a"])) == map["a" := "x"]
  {
    var fields := map["a" := "x,y"];
    var pieces := ["a:x", "y"];
    assert ["a"][..0] == [];
    assert Entry("a", "x,y") == "a:x,y";
    assert Entries(fields, ["a"]) == [] + ["a:x,y"];
    assert Join(pieces, ',') == "a:x,y";
    SplitJoin(pieces, ',');
    CutUnique("a:x", ':', "a", "x");
    assert pieces[..1] == ["a:x"];
    assert ["a:x"][..0] == [];
  }

  // ---------------------------------------------------------------------------
  // The dispatch rules.

  /** What a command comes to: an error before any task, nothing to do, or one task. */
  datatype Decision = Reject(error: Error) | Finish | Launch(task: Task)

  /** The URL of `go`, `navigate`, `search` and `form`: the target, else the `url` parameter. */
  function UrlOf(cmd: Command): string
  {
    if cmd.target != "" then cmd.target else Lookup(cmd.params, "url")
  }

  /** The duration text of `wait`: the `duration` parameter, else the target. */
  function DurationText(cmd: Command): string
  {
    var d := Lookup(cmd.params, "duration");
    if d != "" then d else cmd.target
  }

  /** The code of `script`: the target, else the `code` parameter. */
  function ScriptCode(cmd: Command): string
  {
    if cmd.target != "" then cmd.target else Lookup(cmd.params, "code")
  }

  /** The dispatch switch of `ExecuteCommand`, as a function of the parsed command. */
  function Decide(cmd: Command, v: CommandValidator, parseDuration: string -> Option<int>, atoi: string -> Option<int>): Decision
  {
    var params := cmd.params;
    if cmd.action == "login" then
      var missing := MissingOf(v, cmd);
      if |missing| > 0 || cmd.target == "" then
        Reject(LoginMissing(cmd.target == "", "username" in missing, "password" in missing))
      else
        Launch(NewLoginTask(cmd.target, Lookup(params, "username"), Lookup(params, "password")))
    else if cmd.action == "screenshot" then
      var path := Lookup(params, "path");
      Launch(NewScreenshotTask(if path == "" then DefaultScreenshotPath else path))
    else if cmd.action == "go" || cmd.action == "navigate" then
      if UrlOf(cmd) == "" then Reject(MissingUrl) else Launch(NewNavigationTask(UrlOf(cmd)))
    else if cmd.action == "wait" then
      var text := DurationText(cmd);
      if text == "" then Reject(MissingDuration)
      else
        match ResolveDuration(text, parseDuration, atoi)
        case None => Reject(InvalidDuration(text))
        case Some(d) => Launch(NewWaitTask(d))
    else if cmd.action == "search" then
      var missing := MissingOf(v, cmd);
      var url, input, button := UrlOf(cmd), Lookup(params, "input"), Lookup(params, "button");
      if |missing| > 0 || url == "" || input == "" || button == "" then
        Reject(SearchMissing(url == "", "query" in missing, input == "", button == ""))
      else
        Launch(NewSearchTask(url, Lookup(params, "query"), input, button))
    else if cmd.action == "form" then
      if UrlOf(cmd) == "" then Reject(FormMissingUrl)
      else
        var fields := FormFields(Lookup(params, "fields"));
        if |fields| == 0 then Reject(FormNeedsField)
        else Launch(NewFormFillTask(UrlOf(cmd), Lookup(params, "form"), fields, Lookup(params, "submit")))
    else if cmd.action == "script" then
      if ScriptCode(cmd) == "" then Reject(MissingScriptCode) else Launch(NewScriptTask(ScriptCode(cmd)))
    else if cmd.action == "exit" || cmd.action == "quit" || cmd.action == "help" then
      Finish
    else
      Reject(UnknownCommand(cmd.action))
  }

  /** The actions the dispatcher knows. */
  predicate Known(action: string)
  {
    action in {"login", "screenshot", "go", "navigate", "wait", "search", "form", "script", "exit", "quit", "help"}
  }

  /** Any other action is an unknown-command error; `exit`, `quit` and `help` do nothing. */
  lemma DecideUnknown(cmd: Command, v: CommandValidator, parseDuration: string -> Option<int>, atoi: string -> Option<int>)
    ensures !Known(cmd.action) ==> Decide(cmd, v, parseDuration, atoi) == Reject(UnknownCommand(cmd.action))
    ensures cmd.action in {"exit", "quit", "help"} ==> Decide(cmd, v, parseDuration, atoi) == Finish
    ensures Decide(cmd, v, parseDuration, atoi).Finish? ==> cmd.action in {"exit", "quit", "help"}
  {
  }

  /** `go`/`navigate` runs one navigation to the target, else to the `url` parameter, and fails without either. */
  lemma DecideNavigate(cmd: Command, v: CommandValidator, parseDuration: string -> Option<int>, atoi: string -> Option<int>)
    requires cmd.action == "go" || cmd.action == "navigate"
    ensures var d := Decide(cmd, v, parseDuration, atoi);
            && (d == Reject(MissingUrl) <==> cmd.target == "" && Lookup(cmd.params, "url") == "")
            && (d.Launch? ==> d.task.work == NavigationTask(UrlOf(cmd)) && UrlOf(cmd) != "")
            && (d.Reject? || d.Launch?)
  {
  }

  /**
   * `login` runs only when validation reports nothing and the target is non-empty; its
   * URL is the target, never the `url` parameter, and the credentials are the
   * `username` and `password` parameters. A rejection flags the missing URL and the
   * missing credentials.
   */
  lemma DecideLogin(cmd: Command, v: CommandValidator, parseDuration: string -> Option<int>, atoi: string -> Option<int>)
    requires cmd.action == "login"
    ensures var d := Decide(cmd, v, parseDuration, atoi);
            && (d.Launch? <==> MissingOf(v, cmd) == [] && cmd.target != "")
            && (d.Launch? ==> d.task.work == LoginTask(cmd.target, Lookup(cmd.params, "username"), Lookup(cmd.params, "password")))
            && (d.Reject? ==> d == Reject(LoginMissing(cmd.target == "", "username" in MissingOf(v, cmd),
                                                       "password" in MissingOf(v, cmd))))
            && (d.Reject? || d.Launch?)
  {
  }

  /** `search` runs only when validation passes and the URL, input and button are all given. */
  lemma DecideSearch(cmd: Command, v: CommandValidator, parseDuration: string -> Option<int>, atoi: string -> Option<int>)
    requires cmd.action == "search"
    ensures var d := Decide(cmd, v, parseDuration, atoi);
            && (d.Launch? <==> (MissingOf(v, cmd) == [] && UrlOf(cmd) != ""
                                && Lookup(cmd.params, "input") != "" && Lookup(cmd.params, "button") != ""))
            && (d.Launch? ==> d.task.work == SearchTask(UrlOf(cmd), Lookup(cmd.params, "query"),
                                                       Lookup(cmd.params, "input"), Lookup(cmd.params, "button")))
            && (d.Reject? || d.Launch?)
  {
  }

  /**
   * `form` needs a URL and at least one decoded field; it does not consult the
   * validator, so the table plays no part in it. The task fills the page at the
   * target, else the `url` parameter, with the decoded fields, and submits with the
   * `submit` parameter; the `form` parameter is its form selector.
   */
  lemma DecideForm(cmd: Command, v1: CommandValidator, v2: CommandValidator,
                   parseDuration: string -> Option<int>, atoi: string -> Option<int>)
    requires cmd.action == "form"
    ensures Decide(cmd, v1, parseDuration, atoi) == Decide(cmd, v2, parseDuration, atoi)
    ensures var d := Decide(cmd, v1, parseDuration, atoi);
            && (UrlOf(cmd) == "" ==> d == Reject(FormMissingUrl))
            && (UrlOf(cmd) != "" && FormFields(Lookup(cmd.params, "fields")) == map[] ==> d == Reject(FormNeedsField))
            && (d.Launch? <==> UrlOf(cmd) != "" && FormFields(Lookup(cmd.params, "fields")) != map[])
            && (d.Launch? ==> d.task.work == FormFillTask(UrlOf(cmd), Lookup(cmd.params, "form"),
                                                          FormFields(Lookup(cmd.params, "fields")), Lookup(cmd.params, "submit")))
  {
  }

  /**
   * `wait` reads the `duration` parameter, else the target; text that `ParseDuration`
   * rejects but `Atoi` reads is a number of seconds; anything else is an error.
   */
  lemma DecideWait(cmd: Command, v: CommandValidator, parseDuration: string -> Option<int>, atoi: string -> Option<int>)
    requires cmd.action == "wait"
    ensures var d, text := Decide(cmd, v, parseDuration, atoi), DurationText(cmd);
            && (text == "" ==> d == Reject(MissingDuration))
            && (text != "" && parseDuration(text).None? && atoi(text).None? ==> d == Reject(InvalidDuration(text)))
            && (text != "" && parseDuration(text).Some? ==> d.Launch? && d.task.work == WaitTask(parseDuration(text).value))
            && (text != "" && parseDuration(text).None? && atoi(text).Some? ==>
                  d.Launch? && d.task.work == WaitTask(Wrap64(atoi(text).value * Second)))
  {
  }

  /** `screenshot` always runs, saving to the `path` parameter or to the default path. */
  lemma DecideScreenshot(cmd: Command, v: CommandValidator, parseDuration: string -> Option<int>, atoi: string -> Option<int>)
    requires cmd.action == "screenshot"
    ensures var d := Decide(cmd, v, parseDuration, atoi);
            && d.Launch?
            && d.task.work == ScreenshotTask(if Lookup(cmd.params, "path") == "" then DefaultScreenshotPath
                                             else Lookup(cmd.params, "path"))
  {
  }

  /** `script` runs the target, else the `code` parameter, and fails without either. */
  lemma DecideScript(cmd: Command, v: CommandValidator, parseDuration: string -> Option<int>, atoi: string -> Option<int>)
    requires cmd.action == "script"
    ensures var d := Decide(cmd, v, parseDuration, atoi);
            && (d == Reject(MissingScriptCode) <==> cmd.target == "" && Lookup(cmd.params, "code") == "")
            && (d.Launch? ==> d.task.work == ScriptTask(ScriptCode(cmd)))
            && (d.Reject? || d.Launch?)
  {
  }

  // ---------------------------------------------------------------------------
  // What a command does to the browser.

  /** A task error as the dispatcher reports it, tagged with the task's kind. */
  function Wrapped(kind: TaskKind, o: Outcome): Outcome
  {
    if o.Fail? then Fail(TaskFailed(kind, o.error)) else Ok
  }

  /** `fo` is the field iteration order of the task the decision launches, if any. */
  ghost predicate DecisionFits(d: Decision, fo: seq<string>)
  {
    if d.Launch? then OrderFits(d.task.work, fo) else fo == []
  }

  /** The calls a decision makes and the error it returns, on top of the calls `history`. */
  ghost function DecisionRun(fails: (seq<Call>, Call) -> bool, history: seq<Call>, d: Decision, fo: seq<string>): Effect
    requires DecisionFits(d, fo)
  {
    match d
    case Reject(e) => Effect([], Fail(e))
    case Finish => Effect([], Ok)
    case Launch(t) =>
      var e := Run(fails, history, Plan(t.work, fo));
      Effect(e.calls, Wrapped(KindOf(t.work), e.outcome))
  }

  /**
   * Only a launched task touches the browser; it makes at most as many calls as its
   * plan has steps, and its error is reported tagged with its kind.
   */
  lemma DecisionRunMeaning(fails: (seq<Call>, Call) -> bool, history: seq<Call>, d: Decision, fo: seq<string>)
    requires DecisionFits(d, fo)
    ensures DecisionRun(fails, history, d, fo).calls != [] ==> d.Launch?
    ensures d.Launch? ==> |DecisionRun(fails, history, d, fo).calls| <= |Plan(d.task.work, fo)|
    ensures d.Reject? ==> DecisionRun(fails, history, d, fo).outcome == Fail(d.error)
    ensures d.Launch? && DecisionRun(fails, history, d, fo).outcome.Fail? ==>
              DecisionRun(fails, history, d, fo).outcome.error.TaskFailed?
              && DecisionRun(fails, history, d, fo).outcome.error.kind == KindOf(d.task.work)
    ensures d.Launch? ==> (DecisionRun(fails, history, d, fo).outcome.Ok? <==> Run(fails, history, Plan(d.task.work, fo)).outcome.Ok?)
  {
  }

  /** `po` is the parser's field order for `command`, `fo` the task's field iteration order. */
  ghost predicate OrdersFit(command: string, v: CommandValidator, parseDuration: string -> Option<int>,
                            atoi: string -> Option<int>, po: seq<string>, fo: seq<string>)
  {
    if TrimSpace(command) == "" then po == [] && fo == []
    else ParseOrderFits(command, parseDuration, po) && DecisionFits(Decide(Parsed(command, parseDuration, po), v, parseDuration, atoi), fo)
  }

  /** The calls `command` makes and the error it returns: a blank command does nothing. */
  ghost function CommandRun(fails: (seq<Call>, Call) -> bool, history: seq<Call>, command: string, v: CommandValidator,
                            parseDuration: string -> Option<int>, atoi: string -> Option<int>,
                            po: seq<string>, fo: seq<string>): Effect
    requires OrdersFit(command, v, parseDuration, atoi, po, fo)
  {
    if TrimSpace(command) == "" then Effect([], Ok)
    else DecisionRun(fails, history, Decide(Parsed(command, parseDuration, po), v, parseDuration, atoi), fo)
  }

  class CommandExecutor {
    const browser: Browser
    const validator: CommandValidator
    /** `time.ParseDuration`, in nanoseconds. */
    const parseDuration: string -> Option<int>
    /** `strconv.Atoi`. */
    const atoi: string -> Option<int>

    constructor (browser: Browser, validator: CommandValidator, parseDuration: string -> Option<int>, atoi: string -> Option<int>)
      ensures this.browser == browser && this.validator == validator
      ensures this.parseDuration == parseDuration && this.atoi == atoi
    {
      this.browser := browser;
      this.validator := validator;
      this.parseDuration := parseDuration;
      this.atoi := atoi;
    }

    /** Runs the task a decision launches and tags its error with the task's kind. */
    method RunTask(ghost d: Decision, t: Task) returns (r: Outcome, ghost fo: seq<string>)
      requires d == Launch(t)
      modifies browser
      ensures DecisionFits(d, fo)
      ensures browser.trace == old(browser.trace) + DecisionRun(browser.fails, old(browser.trace), d, fo).calls
      ensures r == DecisionRun(browser.fails, old(browser.trace), d, fo).outcome
    {
      var err;
      err, fo := Execute(t, browser);
      if err.Fail? {
        return Fail(TaskFailed(KindOf(t.work), err.error)), fo;
      }
      r := Ok;
    }

    /** The `fields` parameter read into a map, piece by piece. */
    method ReadFields(fieldsStr: string) returns (fields: map<string, string>)
      ensures fields == FormFields(fieldsStr)
    {
      fields := map[];
      if fieldsStr != "" {
        var fieldPairs := Split(fieldsStr, ',');
        for i := 0 to |fieldPairs|
          invariant fields == FieldsFrom(fieldPairs[..i])
        {
          assert fieldPairs[..i + 1][..i] == fieldPairs[..i];
          var kv := Cut(fieldPairs[i], ':');
          if kv.Some? {
            fields := fields[kv.value.0 := kv.value.1];
          }
        }
        assert fieldPairs[..|fieldPairs|] == fieldPairs;
      }
    }

    /** `ExecuteCommand`: a blank line does nothing; otherwise the line is parsed and dispatched. */
    method ExecuteCommand(command: string) returns (r: Outcome, ghost po: seq<string>, ghost fo: seq<string>)
      modifies browser
      ensures OrdersFit(command, validator, parseDuration, atoi, po, fo)
      ensures browser.trace == old(browser.trace)
                + CommandRun(browser.fails, old(browser.trace), command, validator, parseDuration, atoi, po, fo).calls
      ensures r == CommandRun(browser.fails, old(browser.trace), command, validator, parseDuration, atoi, po, fo).outcome
    {
      po, fo := [], [];
      if TrimSpace(command) == "" {
        return Ok, po, fo;
      }
      var cmd;
      cmd, po := Parse(command, parseDuration);
      r, fo := Dispatch(cmd);
    }

    /** The switch on the action of `ExecuteCommand`, proved against `Decide`. */
    method Dispatch(cmd: Command) returns (r: Outcome, ghost fo: seq<string>)
      modifies browser
      ensures DecisionFits(Decide(cmd, validator, parseDuration, atoi), fo)
      ensures browser.trace == old(browser.trace)
                + DecisionRun(browser.fails, old(browser.trace), Decide(cmd, validator, parseDuration, atoi), fo).calls
      ensures r == DecisionRun(browser.fails, old(browser.trace), Decide(cmd, validator, parseDuration, atoi), fo).outcome
    {
      fo := [];
      ghost var d := Decide(cmd, validator, parseDuration, atoi);
      if cmd.action == "login" {
        var url := cmd.target;
        var username := Lookup(cmd.params, "username");
        var password := Lookup(cmd.params, "password");
        var missing := Validate(validator, cmd);
        if |missing| > 0 || url == "" {
          var noUsername := Contains(missing, "username");
          var noPassword := Contains(missing, "password");
          return Fail(LoginMissing(url == "", noUsername, noPassword)), fo;
        }
        r, fo := RunTask(d, NewLoginTask(url, username, password));

      } else if cmd.action == "screenshot" {
        var path := Lookup(cmd.params, "path");
        if path == "" {
          path := DefaultScreenshotPath;
        }
        r, fo := RunTask(d, NewScreenshotTask(path));

      } else if cmd.action == "go" || cmd.action == "navigate" {
        var url := cmd.target;
        if url == "" {
          url := Lookup(cmd.params, "url");
        }
        if url == "" {
          return Fail(MissingUrl), fo;
        }
        r, fo := RunTask(d, NewNavigationTask(url));

      } else if cmd.action == "wait" {
        var durationStr := Lookup(cmd.params, "duration");
        if durationStr == "" {
          durationStr := cmd.target;
        }
        if durationStr == "" {
          return Fail(MissingDuration), fo;
        }
        var duration := 0;
        match parseDuration(durationStr) {
          case Some(d) =>
            duration := d;
          case None =>
            match atoi(durationStr) {
              case Some(num) =>
                duration := Wrap64(num * Second);
              case None =>
                return Fail(InvalidDuration(durationStr)), fo;
            }
        }
        r, fo := RunTask(d, NewWaitTask(duration));

      } else if cmd.action == "search" {
        var url := cmd.target;
        if url == "" {
          url := Lookup(cmd.params, "url");
        }
        var query := Lookup(cmd.params, "query");
        var input := Lookup(cmd.params, "input");
        var button := Lookup(cmd.params, "button");
        var missing := Validate(validator, cmd);
        if |missing| > 0 || url == "" || input == "" || button == "" {
          var noQuery := Contains(missing, "query");
          return Fail(SearchMissing(url == "", noQuery, input == "", button == "")), fo;
        }
        r, fo := RunTask(d, NewSearchTask(url, query, input, button));

      } else if cmd.action == "form" {
        var url := cmd.target;
        if url == "" {
          url := Lookup(cmd.params, "url");
        }
        var formSelector := Lookup(cmd.params, "form");
        var fieldsStr := Lookup(cmd.params, "fields");
        var submitButton := Lookup(cmd.params, "submit");
        if url == "" {
          return Fail(FormMissingUrl), fo;
        }
        var fields := ReadFields(fieldsStr);
        if |fields| == 0 {
          return Fail(FormNeedsField), fo;
        }
        r, fo := RunTask(d, NewFormFillTask(url, formSelector, fields, submitButton));

      } else if cmd.action == "script" {
        var scriptCode := cmd.target;
        if scriptCode == "" {
          scriptCode := Lookup(cmd.params, "code");
        }
        if scriptCode == "" {
          return Fail(MissingScriptCode), fo;
        }
        r, fo := RunTask(d, NewScriptTask(scriptCode));

      } else if cmd.action == "exit" || cmd.action == "quit" {
        return Ok, fo;

      } else if cmd.action == "help" {
        r := Ok;

      } else {
        return Fail(UnknownCommand(cmd.action)), fo;
      }
    }
  }
}

=== FILE: parser.dfy ===
/**
 * The command parser and validator: a line `<action> [<target>] [<key>=<value> ...]`
 * becomes a `Command`; the validator reports the required parameters a command lacks.
 */
module Parser {
  import opened Text

  /** A parsed command line. `params` maps each key to the last value given for it. */
  datatype Command = Command(action: string, target: string, params: map<string, string>, rawText: string)

  /** Parameters whose key starts with this prefix are the fields of a `form` command. */
  const FieldPrefix: string := "field_"

  /** Token `token` sets `k` with separator `sep`: it contains `sep` and `k` is the text before the first one. */
  predicate Sets(token: string, sep: char, k: string)
  {
    Cut(token, sep).Some? && Cut(token, sep).value.0 == k
  }

  /** The parameters set by `tokens`, read left to right; a later token overwrites an earlier one. */
  function ParamsOf(tokens: seq<string>): map<string, string>
  {
    if tokens == [] then map[]
    else
      var m := ParamsOf(tokens[..|tokens| - 1]);
      match Cut(tokens[|tokens| - 1], '=')
      case None => m
      case Some(kv) => m[kv.0 := kv.1]
  }

  /** The index of the last token that sets `k`, or -1 when none does. */
  function LastSetter(tokens: seq<string>, sep: char, k: string): (j: int)
    ensures -1 <= j < |tokens|
    ensures j >= 0 ==> Sets(tokens[j], sep, k)
    ensures forall i :: j < i < |tokens| ==> !Sets(tokens[i], sep, k)
  {
    if tokens == [] then -1
    else if Sets(tokens[|tokens| - 1], sep, k) then |tokens| - 1
    else LastSetter(tokens[..|tokens| - 1], sep, k)
  }

  /**
   * A key is a parameter exactly when some token sets it, and its value is what
   * the LAST token setting it puts after its first '='.
   */
  lemma {:induction false} ParamsOfMeaning(tokens: seq<string>, k: string)
    ensures k in ParamsOf(tokens) <==> LastSetter(tokens, '=', k) >= 0
    ensures k in ParamsOf(tokens) ==> ParamsOf(tokens)[k] == Cut(tokens[LastSetter(tokens, '=', k)], '=').value.1
  {
    if tokens != [] {
      var n := |tokens| - 1;
      ParamsOfMeaning(tokens[..n], k);
    }
  }

  /** The target: the second token, when there is one and it holds no '='. */
  function TargetOf(parts: seq<string>): string
  {
    if |parts| > 1 && '=' !in parts[1] then parts[1] else ""
  }

  /** The command a line denotes before the special parameters are processed. */
  function Unprocessed(text: string): Command
  {
    var parts := Split(text, ' ');
    Command(ToLower(parts[0]), TargetOf(parts), ParamsOf(parts[1..]), text)
  }

  /**
   * The `wait` parameter rule: a value whose trimmed text is no duration and lacks the
   * unit `s` is replaced by its trimmed text with `s` appended; nothing else changes.
   */
  function WaitRule(params: map<string, string>, parseDuration: string -> Option<int>): (r: map<string, string>)
    ensures r.Keys == params.Keys
    ensures forall k :: k in params && k != "wait" ==> r[k] == params[k]
    ensures "wait" in params ==>
              var t := TrimSpace(params["wait"]);
              r["wait"] == if parseDuration(t).None? && !HasSuffix(t, "s") then t + "s" else params["wait"]
  {
    if "wait" in params then
      var t := TrimSpace(params["wait"]);
      params["wait" := if parseDuration(t).None? && TrimSuffix(t, "s") == t then t + "s" else params["wait"]]
    else params
  }

  /** A trimmed text with the unit `s` appended is still trimmed, and ends in the unit. */
  lemma UnitAppended(t: string)
    requires t == [] || (!IsSpace(t[0]) && !IsSpace(t[|t| - 1]))
    ensures TrimSpace(t + "s") == t + "s"
    ensures HasSuffix(t + "s", "s")
  {
    var u := t + "s";
    assert u[|u| - 1] == 's';
    assert u[0] == if t == [] then 's' else t[0];
    TrimSpaceFixed(u);
    assert u[|t|..] == "s";
  }

  /** After the rule, the trimmed `wait` value is a duration or carries the unit `s`. */
  lemma WaitRuleUnit(params: map<string, string>, parseDuration: string -> Option<int>)
    requires "wait" in params
    ensures var v := TrimSpace(WaitRule(params, parseDuration)["wait"]);
            parseDuration(v).Some? || HasSuffix(v, "s")
  {
    var t := TrimSpace(params["wait"]);
    if parseDuration(t).None? && !HasSuffix(t, "s") {
      UnitAppended(t);
    }
  }

  /** Applying the rule a second time changes nothing. */
  lemma WaitRuleIdempotent(params: map<string, string>, parseDuration: string -> Option<int>)
    ensures WaitRule(WaitRule(params, parseDuration), parseDuration) == WaitRule(params, parseDuration)
  {
    if "wait" in params {
      WaitRuleUnit(params, parseDuration);
      UpdateSame(WaitRule(params, parseDuration), "wait");
    }
  }

  /** The names of the form fields: the keys with the field prefix, without it. */
  function FieldNames(params: map<string, string>): (names: set<string>)
    ensures forall n :: n in names <==> FieldPrefix + n in params
  {
    var names := set k | k in params && HasPrefix(k, FieldPrefix) :: k[|FieldPrefix|..];
    forall n ensures n in names <==> FieldPrefix + n in params {
      PrefixOfConcat(FieldPrefix, n);
      if n in names {
        var k :| k in params && HasPrefix(k, FieldPrefix) && k[|FieldPrefix|..] == n;
        PrefixSplit(k, FieldPrefix);
      }
    }
    names
  }

  /** The form fields: field name to value. */
  function FieldsOf(params: map<string, string>): map<string, string>
  {
    map n | n in FieldNames(params) :: params[FieldPrefix + n]
  }

  /** The parameters that are not form fields. */
  function Others(params: map<string, string>): map<string, string>
  {
    map k | k in params && !HasPrefix(k, FieldPrefix) :: params[k]
  }

  /** One serialized field, `name:value`. */
  function Entry(name: string, value: string): string
  {
    name + ":" + value
  }

  /** The serialized fields, in the order `order` enumerates them. */
  function Entries(fields: map<string, string>, order: seq<string>): (r: seq<string>)
    requires forall i :: 0 <= i < |order| ==> order[i] in fields
    ensures |r| == |order|
  {
    if order == [] then []
    else
      var n := |order| - 1;
      Entries(fields, order[..n]) + [Entry(order[n], fields[order[n]])]
  }

  lemma {:induction false} EntriesAt(fields: map<string, string>, order: seq<string>, i: nat)
    requires forall i :: 0 <= i < |order| ==> order[i] in fields
    requires i < |order|
    ensures Entries(fields, order)[i] == Entry(order[i], fields[order[i]])
  {
    if i < |order| - 1 {
      EntriesAt(fields, order[..|order| - 1], i);
    }
  }

  /** The `fields` parameter: the entries joined by ','. */
  function FormatFields(fields: map<string, string>, order: seq<string>): string
    requires forall i :: 0 <= i < |order| ==> order[i] in fields
  {
    Join(Entries(fields, order), ',')
  }

  /**
   * The `form` rule: every field parameter is removed and, if there was one, they are
   * all serialized into `fields`; every other parameter is kept as it was.
   */
  function FormRule(params: map<string, string>, order: seq<string>): (r: map<string, string>)
    requires IsEnumeration(order, FieldsOf(params).Keys)
    ensures forall k :: k in r ==> !HasPrefix(k, FieldPrefix)
    ensures "fields" in r <==> FieldsOf(params) != map[] || "fields" in params
    ensures FieldsOf(params) != map[] ==> r["fields"] == FormatFields(FieldsOf(params), order)
    ensures forall k :: k in params && !HasPrefix(k, FieldPrefix) && k != "fields" ==> k in r && r[k] == params[k]
    ensures forall k :: k in r && k != "fields" ==> k in params
  {
    var fields := FieldsOf(params);
    var rest := Others(params);
    assert "fields"[5] != FieldPrefix[5];
    if fields != map[] then rest["fields" := FormatFields(fields, order)] else rest
  }

  /** The order in which the `form` rule meets the fields of `cmd`: any enumeration. */
  ghost predicate SpecialOrderFits(cmd: Command, parseDuration: string -> Option<int>, order: seq<string>)
  {
    var fields := FieldsOf(WaitRule(cmd.params, parseDuration));
    if cmd.action == "form" && fields != map[] then IsEnumeration(order, fields.Keys) else order == []
  }

  /** The special parameter processing: the `wait` rule for every action, then the `form` rule. */
  function Special(cmd: Command, parseDuration: string -> Option<int>, order: seq<string>): Command
    requires SpecialOrderFits(cmd, parseDuration, order)
  {
    var params := WaitRule(cmd.params, parseDuration);
    if cmd.action == "form" then cmd.(params := FormRule(params, order)) else cmd.(params := params)
  }

  ghost predicate ParseOrderFits(text: string, parseDuration: string -> Option<int>, order: seq<string>)
  {
    SpecialOrderFits(Unprocessed(text), parseDuration, order)
  }

  /** The command `SimpleParser.Parse` builds from `text`. */
  function Parsed(text: string, parseDuration: string -> Option<int>, order: seq<string>): Command
    requires ParseOrderFits(text, parseDuration, order)
  {
    Special(Unprocessed(text), parseDuration, order)
  }

  /**
   * `SimpleParser.Parse`: never fails. The action is the lower-cased first space-separated
   * token, the raw text is kept, and the command is `Parsed(text)` for the order in which
   * the fields of a form happened to be serialized.
   */
  method Parse(text: string, parseDuration: string -> Option<int>) returns (cmd: Command, ghost order: seq<string>)
    ensures ParseOrderFits(text, parseDuration, order)
    ensures cmd == Parsed(text, parseDuration, order)
    ensures cmd.rawText == text
    ensures cmd.action == ToLower(Split(text, ' ')[0])
  {
    var parts := Split(text, ' ');
    var action := ToLower(parts[0]);
    var target := "";
    if |parts| > 1 && '=' !in parts[1] {
      target := parts[1];
    }
    var params: map<string, string> := map[];
    for i := 1 to |parts|
      invariant params == ParamsOf(parts[1..i])
    {
      assert parts[1..i + 1][..i - 1] == parts[1..i];
      var part := parts[i];
      if '=' in part {
        var kv := Cut(part, '=');
        params := params[kv.value.0 := kv.value.1];
      }
    }
    assert parts[1..|parts|] == parts[1..];
    cmd := Command(action, target, params, text);
    cmd, order := ProcessSpecialParams(cmd, parseDuration);
  }

  /**
   * The parsed command in terms of the line's space-separated tokens: the raw text is
   * kept, the action is the lower-cased first token, the target is the second token
   * when it exists and holds no '=', and a key `k` other than `wait` is a parameter
   * exactly when some later token sets it, with the value the last such token gives;
   * for a `form` command this holds of every key but `fields` and the `field_` keys,
   * none of which it keeps.
   */
  lemma ParsedMeaning(text: string, parseDuration: string -> Option<int>, order: seq<string>, k: string)
    requires ParseOrderFits(text, parseDuration, order)
    requires k != "wait"
    requires ToLower(Split(text, ' ')[0]) == "form" ==> k != "fields" && !HasPrefix(k, FieldPrefix)
    ensures var parts, cmd := Split(text, ' '), Parsed(text, parseDuration, order);
            && cmd.rawText == text
            && cmd.action == ToLower(parts[0])
            && cmd.target == (if |parts| > 1 && '=' !in parts[1] then parts[1] else "")
            && (k in cmd.params <==> LastSetter(parts[1..], '=', k) >= 0)
            && (k in cmd.params ==> cmd.params[k] == Cut(parts[1..][LastSetter(parts[1..], '=', k)], '=').value.1)
            && (cmd.action == "form" ==> forall j :: j in cmd.params ==> !HasPrefix(j, FieldPrefix))
  {
    var parts := Split(text, ' ');
    ParamsOfMeaning(parts[1..], k);
  }

  /** While the `form` rule runs: the parameters still in place when `pending` keys are left to visit. */
  ghost function Kept(p0: map<string, string>, pending: set<string>): map<string, string>
  {
    map k | k in p0 && (k in pending || !HasPrefix(k, FieldPrefix)) :: p0[k]
  }

  /** While the `form` rule runs: the fields moved out so far. */
  ghost function Moved(p0: map<string, string>, pending: set<string>): map<string, string>
  {
    map n | n in FieldNames(p0) && FieldPrefix + n !in pending :: p0[FieldPrefix + n]
  }

  lemma MoveStart(p0: map<string, string>)
    ensures Kept(p0, p0.Keys) == p0 && Moved(p0, p0.Keys) == map[]
  {
  }

  lemma MoveEnd(p0: map<string, string>)
    ensures Kept(p0, {}) == Others(p0) && Moved(p0, {}) == FieldsOf(p0)
  {
  }

  /** Visiting one key moves it to the fields when it has the prefix, and keeps it otherwise. */
  lemma MoveStep(p0: map<string, string>, pending: set<string>, k: string)
    requires k in pending && pending <= p0.Keys
    ensures HasPrefix(k, FieldPrefix) ==>
              && Kept(p0, pending - {k}) == Kept(p0, pending) - {k}
              && Moved(p0, pending - {k}) == Moved(p0, pending)[TrimPrefix(k, FieldPrefix) := Kept(p0, pending)[k]]
    ensures !HasPrefix(k, FieldPrefix) ==>
              Kept(p0, pending - {k}) == Kept(p0, pending) && Moved(p0, pending - {k}) == Moved(p0, pending)
  {
    if HasPrefix(k, FieldPrefix) {
      var name := TrimPrefix(k, FieldPrefix);
      PrefixSplit(k, FieldPrefix);
      forall n ensures FieldPrefix + n == k <==> n == name {
        PrefixOfConcat(FieldPrefix, n);
      }
    } else {
      forall n ensures FieldPrefix + n != k {
        PrefixOfConcat(FieldPrefix, n);
      }
    }
  }

  /** The `wait` half of `processSpecialParams`, on the parameter map. */
  method ApplyWaitRule(params: map<string, string>, parseDuration: string -> Option<int>) returns (r: map<string, string>)
    ensures r == WaitRule(params, parseDuration)
  {
    r := params;
    if "wait" in params {
      var timeStr := TrimSpace(params["wait"]);
      if parseDuration(timeStr).None? {
        if TrimSuffix(timeStr, "s") == timeStr {
          r := params["wait" := timeStr + "s"];
        }
      }
      UpdateSame(params, "wait");
    }
  }

  /** The loop of the `form` half of `processSpecialParams`: every field parameter is moved out. */
  method MoveFields(p0: map<string, string>) returns (params: map<string, string>, fields: map<string, string>)
    ensures params == Others(p0) && fields == FieldsOf(p0)
  {
    params, fields := p0, map[];
    var pending := p0.Keys;
    MoveStart(p0);
    while pending != {}
      invariant pending <= p0.Keys
      invariant params == Kept(p0, pending) && fields == Moved(p0, pending)
      decreases pending
    {
      var k :| k in pending;
      MoveStep(p0, pending, k);
      if HasPrefix(k, FieldPrefix) {
        var fieldName := TrimPrefix(k, FieldPrefix);
        fields := fields[fieldName := params[k]];
        params := params - {k};
      }
      pending := pending - {k};
    }
    MoveEnd(p0);
  }

  /** `processSpecialParams`: applies the `wait` rule and, for `form`, the `form` rule. */
  method ProcessSpecialParams(cmd: Command, parseDuration: string -> Option<int>) returns (r: Command, ghost order: seq<string>)
    ensures SpecialOrderFits(cmd, parseDuration, order)
    ensures r == Special(cmd, parseDuration, order)
  {
    var params := ApplyWaitRule(cmd.params, parseDuration);
    order := [];
    if cmd.action == "form" {
      var fields;
      params, fields := MoveFields(params);
      if |fields| > 0 {
        var s;
        s, order := FormatFieldsMap(fields);
        params := params["fields" := s];
      } else {
        assert fields == map[];
      }
    }
    r := cmd.(params := params);
  }

  /** `formatFieldsMap`: one `name:value` entry per field, joined by ',', in map iteration order. */
  method FormatFieldsMap(fields: map<string, string>) returns (s: string, ghost order: seq<string>)
    ensures IsEnumeration(order, fields.Keys)
    ensures s == FormatFields(fields, order)
  {
    var parts: seq<string> := [];
    order := [];
    var pending := fields.Keys;
    while pending != {}
      invariant pending <= fields.Keys
      invariant forall i :: 0 <= i < |order| ==> order[i] in fields
      invariant IsEnumeration(order, fields.Keys - pending)
      invariant parts == Entries(fields, order)
      decreases pending
    {
      var k :| k in pending;
      parts := parts + [k + ":" + fields[k]];
      assert (order + [k])[..|order|] == order;
      order := order + [k];
      pending := pending - {k};
    }
    s := Join(parts, ',');
  }

  /** The required-parameter table: action to the names it requires, in order. */
  datatype CommandValidator = CommandValidator(requiredParams: map<string, seq<string>>)

  /**
   * `NewCommandValidator`: rules for `login`, `search`, `form` and `wait` only,
   * and of these only `form` requires a URL.
   */
  function NewCommandValidator(): (v: CommandValidator)
    ensures v.requiredParams.Keys == {"login", "search", "form", "wait"}
    ensures forall a :: a in v.requiredParams ==> ("url" in v.requiredParams[a] <==> a == "form")
  {
    CommandValidator(map["login" := ["username", "password"], "search" := ["query"], "form" := ["url"], "wait" := ["duration"]])
  }

  /** The required names other than "url" that are absent from `params`, in table order. */
  function Absent(required: seq<string>, params: map<string, string>): seq<string>
  {
    if required == [] then []
    else
      var n := |required| - 1;
      var p := required[n];
      Absent(required[..n], params) + (if p !in params && p != "url" then [p] else [])
  }

  /** A name is reported absent exactly when the table lists it, it is not "url" and its key is missing. */
  lemma {:induction false} AbsentMeaning(required: seq<string>, params: map<string, string>, x: string)
    ensures x in Absent(required, params) <==> x in required && x != "url" && x !in params
  {
    if required != [] {
      var n := |required| - 1;
      AbsentMeaning(required[..n], params, x);
      assert required == required[..n] + [required[n]];
    }
  }

  /** What `Validate` reports for `cmd`. */
  function MissingOf(v: CommandValidator, cmd: Command): seq<string>
  {
    if cmd.action !in v.requiredParams then []
    else
      var required := v.requiredParams[cmd.action];
      Absent(required, cmd.params)
        + (if "url" in required && cmd.target == "" && Lookup(cmd.params, "url") == "" then ["url"] else [])
  }

  /**
   * The report lists nothing for an action without a rule; otherwise a name other than
   * "url" exactly when the rule lists it and the key is absent, and "url" exactly when
   * the rule lists it and neither the target nor the `url` parameter is non-empty.
   */
  lemma MissingMeaning(v: CommandValidator, cmd: Command)
    ensures cmd.action !in v.requiredParams ==> MissingOf(v, cmd) == []
    ensures forall x :: x in MissingOf(v, cmd) && x != "url" <==>
              cmd.action in v.requiredParams && x in v.requiredParams[cmd.action] && x != "url" && x !in cmd.params
    ensures "url" in MissingOf(v, cmd) <==>
              cmd.action in v.requiredParams && "url" in v.requiredParams[cmd.action]
              && cmd.target == "" && Lookup(cmd.params, "url") == ""
  {
    if cmd.action in v.requiredParams {
      forall x {
        AbsentMeaning(v.requiredParams[cmd.action], cmd.params, x);
      }
    }
  }

  /**
   * `CommandValidator.Validate`: the required names absent from the parameters, in
   * table order (a key present with an empty value counts as present), then "url" when
   * the rule lists it and neither the target nor the `url` parameter gives one.
   */
  method Validate(v: CommandValidator, cmd: Command) returns (missing: seq<string>)
    ensures missing == MissingOf(v, cmd)
  {
    missing := [];
    if cmd.action !in v.requiredParams {
      return;
    }
    var requiredParams := v.requiredParams[cmd.action];
    for i := 0 to |requiredParams|
      invariant missing == Absent(requiredParams[..i], cmd.params)
    {
      assert requiredParams[..i + 1][..i] == requiredParams[..i];
      var param := requiredParams[i];
      if param !in cmd.params && param != "url" {
        missing := missing + [param];
      }
    }
    assert requiredParams[..|requiredParams|] == requiredParams;
    var needsUrl := Contains(requiredParams, "url");
    if needsUrl && cmd.target == "" && Lookup(cmd.params, "url") == "" {
      missing := missing + ["url"];
    }
  }

  /** `contains`: whether `str` is an element of `slice`. */
  method Contains(slice: seq<string>, str: string) returns (found: bool)
    ensures found <==> str in slice
  {
    for i := 0 to |slice|
      invariant str !in slice[..i]
    {
      if slice[i] == str {
        return true;
      }
    }
    return false;
  }

  /** `LLMParser.Parse`: hands the text to the simple parser. */
  method LLMParse(text: string, parseDuration: string -> Option<int>) returns (cmd: Command, ghost order: seq<string>)
    ensures ParseOrderFits(text, parseDuration, order)
    ensures cmd == Parsed(text, parseDuration, order)
  {
    cmd, order := Parse(text, parseDuration);
  }
}

=== FILE: scripts.dfy ===
/**
 * Batch scripts: a script file is read into its list of commands (blank lines and
 * comment lines dropped), and the commands are dispatched one by one, stopping at
 * the first one that fails.
 */
module Scripts {
  import opened Text
  import opened Effects
  import opened Browser
  import opened Executor

  /** A loaded script: its commands in file order, and the file it came from. */
  datatype Script = Script(commands: seq<string>, filename: string)

  /** What the file system gives for a script name. */
  datatype ScriptFile =
    | CannotOpen
    | CannotRead
    | Readable(content: string)

  datatype Loaded = Loaded(script: Script) | LoadFailed(error: Error)

  /** A trimmed line that carries no command: empty, or a `#` or `//` comment. */
  predicate Skipped(line: string)
  {
    line == "" || HasPrefix(line, "#") || HasPrefix(line, "//")
  }

  /** The commands of a list of lines: each line trimmed, skipped lines dropped, order kept. */
  function CommandsOf(lines: seq<string>): seq<string>
  {
    if lines == [] then []
    else
      var n := |lines| - 1;
      var line := TrimSpace(lines[n]);
      CommandsOf(lines[..n]) + (if Skipped(line) then [] else [line])
  }

  /** One line contributes its trimmed text, or nothing when it is blank or a comment. */
  lemma {:induction false} CommandsOfLine(line: string)
    ensures CommandsOf([line]) == if Skipped(TrimSpace(line)) then [] else [TrimSpace(line)]
  {
    assert [line][..0] == [];
  }

  /** Scanning one more line adds that line's command, if any. */
  lemma CommandsOfPrefix(lines: seq<string>, i: nat)
    requires i < |lines|
    ensures var line := TrimSpace(lines[i]);
            CommandsOf(lines[..i + 1]) == CommandsOf(lines[..i]) + (if Skipped(line) then [] else [line])
  {
    assert lines[..i + 1][..i] == lines[..i];
  }

  /** The commands of consecutive pieces of text are the pieces' commands, in the same order. */
  lemma {:induction false} CommandsOfAppend(a: seq<string>, b: seq<string>)
    ensures CommandsOf(a + b) == CommandsOf(a) + CommandsOf(b)
    decreases |b|
  {
    if b == [] {
      assert a + b == a;
    } else {
      var n := |b| - 1;
      assert (a + b)[..|a + b| - 1] == a + b[..n];
      CommandsOfAppend(a, b[..n]);
    }
  }

  /** Every loaded command is non-empty, has no surrounding white space and is not a comment. */
  lemma {:induction false} CommandsWellFormed(lines: seq<string>)
    ensures forall i :: 0 <= i < |CommandsOf(lines)| ==>
              var c := CommandsOf(lines)[i];
              c != "" && TrimSpace(c) == c && !HasPrefix(c, "#") && !HasPrefix(c, "//")
  {
    if lines != [] {
      var n := |lines| - 1;
      CommandsWellFormed(lines[..n]);
      TrimSpaceIdempotent(lines[n]);
    }
  }

  /**
   * `LoadScript`: the file's lines are scanned in order and every line that is not
   * blank or a comment is kept, trimmed. A file that cannot be opened or read gives an
   * error naming it and no script.
   */
  method LoadScript(filename: string, file: ScriptFile) returns (result: Loaded)
    ensures file.CannotOpen? ==> result == LoadFailed(ScriptOpenFailed(filename))
    ensures file.CannotRead? ==> result == LoadFailed(ScriptReadFailed(filename))
    ensures file.Readable? ==> result == Loaded(Script(CommandsOf(Split(file.content, '\n')), filename))
  {
    if file.CannotOpen? {
      return LoadFailed(ScriptOpenFailed(filename));
    }
    var commands: seq<string> := [];
    if file.CannotRead? {
      return LoadFailed(ScriptReadFailed(filename));
    }
    var lines := Split(file.content, '\n');
    for lineNum := 0 to |lines|
      invariant commands == CommandsOf(lines[..lineNum])
    {
      var line := TrimSpace(lines[lineNum]);
      CommandsOfPrefix(lines, lineNum);
      if line == "" || HasPrefix(line, "#") || HasPrefix(line, "//") {
        continue;
      }
      commands := commands + [line];
    }
    assert lines[..|lines|] == lines;
    return Loaded(Script(commands, filename));
  }

  // ---------------------------------------------------------------------------
  // Running a script.

  /**
   * What one `ExecuteCommand` call of a script executor does: given the trace so far,
   * the command and the iteration orders it picked, the calls it makes and its result.
   */
  type Semantics = (seq<Call>, string, seq<string>, seq<string>) --> Effect

  /** The semantics of `CommandExecutor.ExecuteCommand`, the script executor of the program. */
  ghost function ExecutorSemantics(ce: CommandExecutor): Semantics
  {
    (history: seq<Call>, command: string, po: seq<string>, fo: seq<string>)
      requires OrdersFit(command, ce.validator, ce.parseDuration, ce.atoi, po, fo) =>
      CommandRun(ce.browser.fails, history, command, ce.validator, ce.parseDuration, ce.atoi, po, fo)
  }

  /**
   * `step` agrees with `CommandExecutor.ExecuteCommand` of `ce` wherever the iteration
   * orders fit the command: it accepts them and gives the same calls and result.
   */
  ghost predicate ExecutesCommands(step: Semantics, ce: CommandExecutor)
  {
    forall history: seq<Call>, command: string, po: seq<string>, fo: seq<string>
      {:trigger CommandRun(ce.browser.fails, history, command, ce.validator, ce.parseDuration, ce.atoi, po, fo)} ::
      OrdersFit(command, ce.validator, ce.parseDuration, ce.atoi, po, fo) ==>
        && step.requires(history, command, po, fo)
        && step(history, command, po, fo)
           == CommandRun(ce.browser.fails, history, command, ce.validator, ce.parseDuration, ce.atoi, po, fo)
  }

  /** The iteration orders that fit a command for `ce`'s validator and parsers. */
  ghost function Fits(ce: CommandExecutor): (string, seq<string>, seq<string>) -> bool
  {
    (command: string, po: seq<string>, fo: seq<string>) => OrdersFit(command, ce.validator, ce.parseDuration, ce.atoi, po, fo)
  }

  lemma ExecutorSemanticsExecutesCommands(ce: CommandExecutor)
    ensures ExecutesCommands(ExecutorSemantics(ce), ce)
  {
  }

  /**
   * The commands were dispatched once each, in order: command `n`, with iteration
   * orders `pos[n]` and `fos[n]` that fit it, ran on the trace left by the commands
   * before it.
   */
  ghost predicate Dispatched(step: Semantics, fits: (string, seq<string>, seq<string>) -> bool,
                             history: seq<Call>, commands: seq<string>,
                             pos: seq<seq<string>>, fos: seq<seq<string>>, effects: seq<Effect>)
    decreases |commands|
  {
    && |pos| == |fos| == |effects| == |commands|
    && (commands != [] ==>
          var n := |commands| - 1;
          && Dispatched(step, fits, history, commands[..n], pos[..n], fos[..n], effects[..n])
          && fits(commands[n], pos[n], fos[n])
          && step.requires(history + AllCalls(effects[..n]), commands[n], pos[n], fos[n])
          && effects[n] == step(history + AllCalls(effects[..n]), commands[n], pos[n], fos[n]))
  }

  /** Dispatching command `i` after the first `i` extends `Dispatched`. */
  lemma DispatchedStep(step: Semantics, fits: (string, seq<string>, seq<string>) -> bool,
                       history: seq<Call>, commands: seq<string>, i: nat,
                       pos: seq<seq<string>>, fos: seq<seq<string>>, effects: seq<Effect>,
                       po: seq<string>, fo: seq<string>, e: Effect)
    requires i < |commands|
    requires Dispatched(step, fits, history, commands[..i], pos, fos, effects)
    requires fits(commands[i], po, fo)
    requires step.requires(history + AllCalls(effects), commands[i], po, fo)
    requires e == step(history + AllCalls(effects), commands[i], po, fo)
    ensures Dispatched(step, fits, history, commands[..i + 1], pos + [po], fos + [fo], effects + [e])
    ensures history + AllCalls(effects + [e]) == history + AllCalls(effects) + e.calls
    ensures (effects + [e])[..i] == effects
    ensures AllOk(effects) && e.outcome.Ok? ==> AllOk(effects + [e])
  {
    assert commands[..i + 1][..i] == commands[..i];
    assert history + (AllCalls(effects) + e.calls) == history + AllCalls(effects) + e.calls;
    assert (pos + [po])[..i] == pos;
    assert (fos + [fo])[..i] == fos;
    assert (effects + [e])[..i] == effects;
  }

  /** `Dispatched`, command by command. */
  lemma {:induction false} DispatchedAt(step: Semantics, fits: (string, seq<string>, seq<string>) -> bool,
                                        history: seq<Call>, commands: seq<string>,
                                        pos: seq<seq<string>>, fos: seq<seq<string>>, effects: seq<Effect>, i: nat)
    requires Dispatched(step, fits, history, commands, pos, fos, effects)
    requires i < |commands|
    ensures fits(commands[i], pos[i], fos[i])
    ensures step.requires(history + AllCalls(effects[..i]), commands[i], pos[i], fos[i])
    ensures effects[i] == step(history + AllCalls(effects[..i]), commands[i], pos[i], fos[i])
    decreases |commands|
  {
    var n := |commands| - 1;
    if i < n {
      DispatchedAt(step, fits, history, commands[..n], pos[..n], fos[..n], effects[..n], i);
      assert effects[..n][..i] == effects[..i];
      assert commands[..n][i] == commands[i];
    }
  }

  /**
   * Whatever semantics agreeing with `ExecuteCommand` the record was written with,
   * command `i` made exactly the calls of `CommandRun` on the trace the commands
   * before it left, and returned its result.
   */
  lemma DispatchedRuns(step: Semantics, ce: CommandExecutor, history: seq<Call>, commands: seq<string>,
                       pos: seq<seq<string>>, fos: seq<seq<string>>, effects: seq<Effect>, i: nat)
    requires ExecutesCommands(step, ce)
    requires Dispatched(step, Fits(ce), history, commands, pos, fos, effects)
    requires i < |commands|
    ensures OrdersFit(commands[i], ce.validator, ce.parseDuration, ce.atoi, pos[i], fos[i])
    ensures effects[i] == CommandRun(ce.browser.fails, history + AllCalls(effects[..i]), commands[i],
                                     ce.validator, ce.parseDuration, ce.atoi, pos[i], fos[i])
  {
    DispatchedAt(step, Fits(ce), history, commands, pos, fos, effects, i);
  }

  /**
   * The effects of a dispatched script are fixed by the executor's semantics and the
   * iteration orders alone; nothing else (such as the verbose flag) has a say.
   */
  lemma {:induction false} DispatchedUnique(step: Semantics, fits: (string, seq<string>, seq<string>) -> bool,
                                            history: seq<Call>, commands: seq<string>,
                                            pos: seq<seq<string>>, fos: seq<seq<string>>,
                                            effects1: seq<Effect>, effects2: seq<Effect>)
    requires Dispatched(step, fits, history, commands, pos, fos, effects1)
    requires Dispatched(step, fits, history, commands, pos, fos, effects2)
    ensures effects1 == effects2
    decreases |commands|
  {
    if commands != [] {
      var n := |commands| - 1;
      DispatchedUnique(step, fits, history, commands[..n], pos[..n], fos[..n], effects1[..n], effects2[..n]);
      assert effects1 == effects1[..n] + [effects1[n]];
      assert effects2 == effects2[..n] + [effects2[n]];
    }
  }

  /** Every dispatched command returned nil. */
  ghost predicate AllOk(effects: seq<Effect>)
    decreases |effects|
  {
    effects == [] || (AllOk(effects[..|effects| - 1]) && effects[|effects| - 1].outcome.Ok?)
  }

  lemma {:induction false} AllOkMeaning(effects: seq<Effect>)
    ensures AllOk(effects) <==> forall i :: 0 <= i < |effects| ==> effects[i].outcome.Ok?
  {
    if effects != [] {
      var n := |effects| - 1;
      AllOkMeaning(effects[..n]);
      assert forall i :: 0 <= i < n ==> effects[..n][i] == effects[i];
    }
  }

  /**
   * Fail-fast: the commands before the last dispatched one all returned nil; the run
   * ends with nil exactly when every command was dispatched and returned nil, and
   * otherwise with the last dispatched command's error, naming that command.
   */
  ghost predicate StoppedAtFirstFailure(commands: seq<string>, effects: seq<Effect>, r: Outcome)
  {
    && |effects| <= |commands|
    && if r.Ok? then |effects| == |commands| && AllOk(effects)
       else
         var last := |effects| - 1;
         && last >= 0 && AllOk(effects[..last]) && effects[last].outcome.Fail?
         && r.error == ScriptCommandFailed(commands[last], effects[last].outcome.error)
  }

  /** A failing command ends the run with its error, after commands that all returned nil. */
  lemma StopsAt(commands: seq<string>, effects: seq<Effect>, e: Effect)
    requires |effects| < |commands| && AllOk(effects) && e.outcome.Fail?
    ensures StoppedAtFirstFailure(commands, effects + [e], Fail(ScriptCommandFailed(commands[|effects|], e.outcome.error)))
  {
    assert (effects + [e])[..|effects|] == effects;
  }

  /** The progress lines a verbose run prints. */
  datatype Echo =
    | Starting(filename: string, count: nat)
    | Running(number: nat, total: nat, command: string)
    | Finished

  /** The progress of a run that has announced the first `n` commands. */
  function Echoes(script: Script, n: nat): (lines: seq<Echo>)
    requires n <= |script.commands|
    ensures |lines| == n + 1
  {
    if n == 0 then [Starting(script.filename, |script.commands|)]
    else Echoes(script, n - 1) + [Running(n, |script.commands|, script.commands[n - 1])]
  }

  /**
   * A verbose run first announces the file and its command count, then each command
   * with its 1-based number, in order.
   */
  lemma {:induction false} EchoesMeaning(script: Script, n: nat)
    requires n <= |script.commands|
    ensures Echoes(script, n)[0] == Starting(script.filename, |script.commands|)
    ensures forall i :: 0 <= i < n ==> Echoes(script, n)[i + 1] == Running(i + 1, |script.commands|, script.commands[i])
  {
    if n > 0 {
      EchoesMeaning(script, n - 1);
    }
  }

  /** What is printed of some progress lines: all of them in verbose mode, none otherwise. */
  function Shown(verbose: bool, lines: seq<Echo>): seq<Echo>
  {
    if verbose then lines else []
  }

  /** A progress line is printed only in verbose mode. */
  method Announce(progress: seq<Echo>, verbose: bool, line: Echo) returns (printed: seq<Echo>)
    ensures printed == if verbose then progress + [line] else progress
  {
    printed := progress;
    if verbose {
      printed := printed + [line];
    }
  }

  /**
   * One turn of the script loop: command `i` is announced, then dispatched with
   * `ExecuteCommand` on the trace left by the first `i`, which all returned nil.
   */
  method RunCommand(executor: CommandExecutor, ghost step: Semantics, ghost history: seq<Call>,
                    script: Script, verbose: bool, i: nat, progress: seq<Echo>,
                    ghost pos: seq<seq<string>>, ghost fos: seq<seq<string>>, ghost effects: seq<Effect>)
    returns (err: Outcome, printed: seq<Echo>,
             ghost pos': seq<seq<string>>, ghost fos': seq<seq<string>>, ghost effects': seq<Effect>)
    requires ExecutesCommands(step, executor)
    requires i < |script.commands| && |effects| == i
    requires Dispatched(step, Fits(executor), history, script.commands[..i], pos, fos, effects)
    requires executor.browser.trace == history + AllCalls(effects)
    requires AllOk(effects)
    requires progress == Shown(verbose, Echoes(script, i))
    modifies executor.browser
    ensures |effects'| == i + 1
    ensures Dispatched(step, Fits(executor), history, script.commands[..i + 1], pos', fos', effects')
    ensures executor.browser.trace == history + AllCalls(effects')
    ensures printed == Shown(verbose, Echoes(script, i + 1))
    ensures err.Ok? ==> AllOk(effects')
    ensures err.Fail? ==>
              StoppedAtFirstFailure(script.commands, effects', Fail(ScriptCommandFailed(script.commands[i], err.error)))
  {
    var command := script.commands[i];
    printed := Announce(progress, verbose, Running(i + 1, |script.commands|, command));
    ghost var before := executor.browser.trace;
    ghost var po, fo;
    err, po, fo := executor.ExecuteCommand(command);
    ghost var e := step(before, command, po, fo);
    DispatchedStep(step, Fits(executor), history, script.commands, i, pos, fos, effects, po, fo, e);
    if err.Fail? {
      StopsAt(script.commands, effects, e);
    }
    pos', fos', effects' := pos + [po], fos + [fo], effects + [e];
  }

  /**
   * `ExecuteScript`: the commands are dispatched in index order until one fails. On
   * a failure the remaining commands are never dispatched and the error names the
   * failing command; otherwise every command ran once and the result is nil. The
   * verbose flag only adds progress lines. `step` is any semantics that agrees with
   * the executor's `ExecuteCommand`, such as `ExecutorSemantics(executor)`.
   */
  method ExecuteScript(script: Script, executor: CommandExecutor, verbose: bool, ghost step: Semantics)
    returns (r: Outcome, progress: seq<Echo>,
             ghost pos: seq<seq<string>>, ghost fos: seq<seq<string>>, ghost effects: seq<Effect>)
    requires ExecutesCommands(step, executor)
    modifies executor.browser
    ensures StoppedAtFirstFailure(script.commands, effects, r)
    ensures Dispatched(step, Fits(executor), old(executor.browser.trace), script.commands[..|effects|], pos, fos, effects)
    ensures executor.browser.trace == old(executor.browser.trace) + AllCalls(effects)
    ensures progress == Shown(verbose, if r.Ok? then Echoes(script, |effects|) + [Finished] else Echoes(script, |effects|))
  {
    r, progress, pos, fos, effects := Ok, [], [], [], [];
    progress := Announce(progress, verbose, Starting(script.filename, |script.commands|));
    for i := 0 to |script.commands|
      invariant |effects| == i
      invariant Dispatched(step, Fits(executor), old(executor.browser.trace), script.commands[..i], pos, fos, effects)
      invariant executor.browser.trace == old(executor.browser.trace) + AllCalls(effects)
      invariant AllOk(effects)
      invariant progress == Shown(verbose, Echoes(script, i))
    {
      var err;
      err, progress, pos, fos, effects :=
        RunCommand(executor, step, old(executor.browser.trace), script, verbose, i, progress, pos, fos, effects);
      if err.Fail? {
        return Fail(ScriptCommandFailed(script.commands[i], err.error)), progress, pos, fos, effects;
      }
    }
    assert script.commands[..|script.commands|] == script.commands;
    progress := Announce(progress, verbose, Finished);
  }
}

=== FILE: tasks.dfy ===
/**
 * The task library: seven task variants, each a fixed sequence of capability calls
 * with early return on the first failure, and the fail-soft task manager.
 */
module Tasks {
  import opened Text
  import opened Effects
  import opened Browser

  const UsernameSelector: string := "input[name='username']"
  const PasswordSelector: string := "input[name='password']"
  const LoginButtonSelector: string := "button[type='submit']"

  /** The name and description every task carries. */
  datatype BaseTask = BaseTask(name: string, description: string)

  /** What a task does, one constructor per task type. `FormFillTask` maps selectors to values. */
  datatype Work =
    | LoginTask(url: string, username: string, password: string)
    | SearchTask(url: string, searchQuery: string, searchInput: string, searchButton: string)
    | FormFillTask(url: string, formSelector: string, fields: map<string, string>, submitButton: string)
    | NavigationTask(url: string)
    | ScreenshotTask(path: string)
    | ScriptTask(script: string)
    | WaitTask(duration: int)

  datatype Task = Task(base: BaseTask, work: Work)
  {
    function GetName(): string
    {
      base.name
    }

    function GetDescription(): string
    {
      base.description
    }
  }

  function KindOf(w: Work): TaskKind
  {
    match w
    case LoginTask(_, _, _) => LoginKind
    case SearchTask(_, _, _, _) => SearchKind
    case FormFillTask(_, _, _, _) => FormKind
    case NavigationTask(_) => NavigationKind
    case ScreenshotTask(_) => ScreenshotKind
    case ScriptTask(_) => ScriptKind
    case WaitTask(_) => WaitKind
  }

  /** The name and description each constructor gives its tasks. */
  function Label(w: Work): BaseTask
  {
    match w
    case LoginTask(_, _, _) => BaseTask("登录任务", "自动登录到指定系统")
    case SearchTask(_, _, _, _) => BaseTask("搜索任务", "在网站中执行搜索")
    case FormFillTask(_, _, _, _) => BaseTask("表单填写任务", "自动填写网页表单")
    case NavigationTask(_) => BaseTask("导航任务", "导航到指定URL")
    case ScreenshotTask(_) => BaseTask("截图任务", "截取当前页面")
    case ScriptTask(_) => BaseTask("脚本执行任务", "执行JavaScript脚本")
    case WaitTask(_) => BaseTask("等待任务", "等待指定时间")
  }

  /** A task's name tells its variant apart from every other variant. */
  lemma NameIdentifiesKind(w1: Work, w2: Work)
    requires Label(w1).name == Label(w2).name
    ensures KindOf(w1) == KindOf(w2)
  {
  }

  function NewLoginTask(url: string, username: string, password: string): (t: Task)
    ensures t.work == LoginTask(url, username, password)
    ensures t.GetName() == "登录任务" && t.GetDescription() == "自动登录到指定系统" && t.base == Label(t.work)
  {
    Task(Label(LoginTask(url, username, password)), LoginTask(url, username, password))
  }

  function NewSearchTask(url: string, query: string, inputSelector: string, buttonSelector: string): (t: Task)
    ensures t.work == SearchTask(url, query, inputSelector, buttonSelector)
    ensures t.GetName() == "搜索任务" && t.GetDescription() == "在网站中执行搜索" && t.base == Label(t.work)
  {
    Task(Label(SearchTask(url, query, inputSelector, buttonSelector)), SearchTask(url, query, inputSelector, buttonSelector))
  }

  function NewFormFillTask(url: string, formSelector: string, fields: map<string, string>, submitButton: string): (t: Task)
    ensures t.work == FormFillTask(url, formSelector, fields, submitButton)
    ensures t.GetName() == "表单填写任务" && t.GetDescription() == "自动填写网页表单" && t.base == Label(t.work)
  {
    Task(Label(FormFillTask(url, formSelector, fields, submitButton)), FormFillTask(url, formSelector, fields, submitButton))
  }

  function NewNavigationTask(url: string): (t: Task)
    ensures t.work == NavigationTask(url)
    ensures t.GetName() == "导航任务" && t.GetDescription() == "导航到指定URL" && t.base == Label(t.work)
  {
    Task(Label(NavigationTask(url)), NavigationTask(url))
  }

  function NewScreenshotTask(path: string): (t: Task)
    ensures t.work == ScreenshotTask(path)
    ensures t.GetName() == "截图任务" && t.GetDescription() == "截取当前页面" && t.base == Label(t.work)
  {
    Task(Label(ScreenshotTask(path)), ScreenshotTask(path))
  }

  function NewScriptTask(script: string): (t: Task)
    ensures t.work == ScriptTask(script)
    ensures t.GetName() == "脚本执行任务" && t.GetDescription() == "执行JavaScript脚本" && t.base == Label(t.work)
  {
    Task(Label(ScriptTask(script)), ScriptTask(script))
  }

  function NewWaitTask(duration: int): (t: Task)
    ensures t.work == WaitTask(duration)
    ensures t.GetName() == "等待任务" && t.GetDescription() == "等待指定时间" && t.base == Label(t.work)
  {
    Task(Label(WaitTask(duration)), WaitTask(duration))
  }

  // ---------------------------------------------------------------------------
  // The call sequence of each task.

  function LoginPlan(url: string, username: string, password: string): seq<Step>
  {
    [ Plain(Navigate(url)), Plain(WaitLoad),
      Plain(Find(UsernameSelector)), Plain(Clear(UsernameSelector)), Plain(Input(UsernameSelector, username)),
      Plain(Find(PasswordSelector)), Plain(Clear(PasswordSelector)), Plain(Input(PasswordSelector, password)),
      Plain(Find(LoginButtonSelector)), Plain(Click(LoginButtonSelector)),
      Plain(WaitLoad) ]
  }

  function SearchPlan(url: string, query: string, inputSelector: string, buttonSelector: string): seq<Step>
  {
    [ Plain(Navigate(url)), Plain(WaitLoad),
      Plain(Find(inputSelector)), Plain(Clear(inputSelector)), Plain(Input(inputSelector, query)),
      Plain(Find(buttonSelector)), Plain(Click(buttonSelector)),
      Plain(WaitLoad) ]
  }

  /** Filling one form field; each failure is reported with the field's selector. */
  function FieldSteps(selector: string, value: string): seq<Step>
  {
    [ Step(Find(selector), FieldFailed(selector, CallFailed(Find(selector)))),
      Step(Clear(selector), FieldFailed(selector, CallFailed(Clear(selector)))),
      Step(Input(selector, value), FieldFailed(selector, CallFailed(Input(selector, value)))) ]
  }

  /** Filling the fields in the order `order`. */
  function FillSteps(fields: map<string, string>, order: seq<string>): (steps: seq<Step>)
    requires forall x :: x in order ==> x in fields
    ensures |steps| == 3 * |order|
  {
    if order == [] then []
    else
      var last := order[|order| - 1];
      FillSteps(fields, order[..|order| - 1]) + FieldSteps(last, fields[last])
  }

  lemma {:induction false} FillStepsAppend(fields: map<string, string>, xs: seq<string>, ys: seq<string>)
    requires forall x :: x in xs + ys ==> x in fields
    ensures FillSteps(fields, xs + ys) == FillSteps(fields, xs) + FillSteps(fields, ys)
    decreases |ys|
  {
    if ys == [] {
      assert xs + ys == xs;
    } else {
      var init := ys[..|ys| - 1];
      assert (xs + ys)[..|xs + ys| - 1] == xs + init;
      FillStepsAppend(fields, xs, init);
    }
  }

  /** Pressing the submit button, when one is named. */
  function SubmitSteps(submitButton: string): seq<Step>
  {
    if submitButton == "" then []
    else
      [ Step(Find(submitButton), SubmitNotFound(submitButton, CallFailed(Find(submitButton)))),
        Step(Click(submitButton), SubmitClickFailed(CallFailed(Click(submitButton)))) ]
  }

  function FormHead(url: string): seq<Step>
  {
    [Plain(Navigate(url)), Plain(WaitLoad)]
  }

  function FormTail(submitButton: string): seq<Step>
  {
    SubmitSteps(submitButton) + [Plain(WaitLoad)]
  }

  /** What follows the page load: the fields, then the submit button and the final wait. */
  function FormBody(fields: map<string, string>, submitButton: string, order: seq<string>): seq<Step>
    requires forall x :: x in order ==> x in fields
  {
    FillSteps(fields, order) + FormTail(submitButton)
  }

  function FormPlan(url: string, fields: map<string, string>, submitButton: string, order: seq<string>): seq<Step>
    requires forall x :: x in order ==> x in fields
  {
    FormHead(url) + FormBody(fields, submitButton, order)
  }

  /** `order` is a possible iteration order of the task's field map (empty for other tasks). */
  ghost predicate OrderFits(w: Work, order: seq<string>)
  {
    if w.FormFillTask? then IsEnumeration(order, w.fields.Keys) else order == []
  }

  /** The calls a task makes when nothing fails, with the error each call's failure returns. */
  function Plan(w: Work, order: seq<string>): seq<Step>
    requires OrderFits(w, order)
  {
    match w
    case LoginTask(url, username, password) => LoginPlan(url, username, password)
    case SearchTask(url, query, input, button) => SearchPlan(url, query, input, button)
    case FormFillTask(url, _, fields, submit) => FormPlan(url, fields, submit, order)
    case NavigationTask(url) => [Plain(Navigate(url)), Plain(WaitLoad)]
    case ScreenshotTask(path) => [Plain(Screenshot(path))]
    case ScriptTask(script) => [Plain(ExecuteScript(script))]
    case WaitTask(_) => []
  }

  // ---------------------------------------------------------------------------
  // Execution.

  method ExecuteLogin(url: string, username: string, password: string, b: Browser) returns (r: Outcome)
    modifies b
    ensures b.trace == old(b.trace) + Run(b.fails, old(b.trace), LoginPlan(url, username, password)).calls
    ensures r == Run(b.fails, old(b.trace), LoginPlan(url, username, password)).outcome
  {
    ghost var t, rest := b.trace, LoginPlan(url, username, password);
    r := b.Navigate(url);
    Next(b.fails, t, rest, r);
    if r.Fail? { return; }
    t, rest := b.trace, rest[1..];
    r := b.WaitLoad();
    Next(b.fails, t, rest, r);
    if r.Fail? { return; }
    t, rest := b.trace, rest[1..];

    var userInput;
    userInput, r := b.Find(UsernameSelector);
    Next(b.fails, t, rest, r);
    if r.Fail? { return; }
    t, rest := b.trace, rest[1..];
    r := b.Clear(userInput);
    Next(b.fails, t, rest, r);
    if r.Fail? { return; }
    t, rest := b.trace, rest[1..];
    r := b.Input(userInput, username);
    Next(b.fails, t, rest, r);
    if r.Fail? { return; }
    t, rest := b.trace, rest[1..];

    var passInput;
    passInput, r := b.Find(PasswordSelector);
    Next(b.fails, t, rest, r);
    if r.Fail? { return; }
    t, rest := b.trace, rest[1..];
    r := b.Clear(passInput);
    Next(b.fails, t, rest, r);
    if r.Fail? { return; }
    t, rest := b.trace, rest[1..];
    r := b.Input(passInput, password);
    Next(b.fails, t, rest, r);
    if r.Fail? { return; }
    t, rest := b.trace, rest[1..];

    var loginBtn;
    loginBtn, r := b.Find(LoginButtonSelector);
    Next(b.fails, t, rest, r);
    if r.Fail? { return; }
    t, rest := b.trace, rest[1..];
    r := b.Click(loginBtn);
    Next(b.fails, t, rest, r);
    if r.Fail? { return; }
    t, rest := b.trace, rest[1..];

    r := b.WaitLoad();
    Next(b.fails, t, rest, r);
  }

  method ExecuteSearch(url: string, query: string, inputSelector: string, buttonSelector: string, b: Browser)
    returns (r: Outcome)
    modifies b
    ensures b.trace == old(b.trace) + Run(b.fails, old(b.trace), SearchPlan(url, query, inputSelector, buttonSelector)).calls
    ensures r == Run(b.fails, old(b.trace), SearchPlan(url, query, inputSelector, buttonSelector)).outcome
  {
    ghost var t, rest := b.trace, SearchPlan(url, query, inputSelector, buttonSelector);
    r := b.Navigate(url);
    Next(b.fails, t, rest, r);
    if r.Fail? { return; }
    t, rest := b.trace, rest[1..];
    r := b.WaitLoad();
    Next(b.fails, t, rest, r);
    if r.Fail? { return; }
    t, rest := b.trace, rest[1..];

    var searchInput;
    searchInput, r := b.Find(inputSelector);
    Next(b.fails, t, rest, r);
    if r.Fail? { return; }
    t, rest := b.trace, rest[1..];
    r := b.Clear(searchInput);
    Next(b.fails, t, rest, r);
    if r.Fail? { return; }
    t, rest := b.trace, rest[1..];
    r := b.Input(searchInput, query);
    Next(b.fails, t, rest, r);
    if r.Fail? { return; }
    t, rest := b.trace, rest[1..];

    var searchBtn;
    searchBtn, r := b.Find(buttonSelector);
    Next(b.fails, t, rest, r);
    if r.Fail? { return; }
    t, rest := b.trace, rest[1..];
    r := b.Click(searchBtn);
    Next(b.fails, t, rest, r);
    if r.Fail? { return; }
    t, rest := b.trace, rest[1..];

    r := b.WaitLoad();
    Next(b.fails, t, rest, r);
  }

  lemma FormBodySplit(fields: map<string, string>, submitButton: string,
                      seen: seq<string>, selector: string, later: seq<string>)
    requires forall x :: x in seen + [selector] + later ==> x in fields
    ensures FormBody(fields, submitButton, seen + [selector] + later)
         == FillSteps(fields, seen) + FieldSteps(selector, fields[selector])
            + (FillSteps(fields, later) + FormTail(submitButton))
  {
    var init := seen + [selector];
    assert forall x :: x in init ==> x in init + later;
    FillStepsAppend(fields, init, later);
    assert init[..|init| - 1] == seen;
    var a, b, c, d := FillSteps(fields, seen), FieldSteps(selector, fields[selector]), FillSteps(fields, later), FormTail(submitButton);
    assert FillSteps(fields, init) == a + b;
    assert a + b + c + d == a + b + (c + d);
  }

  /** Once the page is loaded, running the form plan is running its body from there. */
  lemma AfterHead(fails: (seq<Call>, Call) -> bool, h: seq<Call>, url: string, body: seq<Step>)
    requires !fails(h, Navigate(url)) && !fails(h + [Navigate(url)], WaitLoad)
    ensures After(fails, h, FormHead(url) + body) == After(fails, h + [Navigate(url)] + [WaitLoad], body)
    ensures Run(fails, h, FormHead(url) + body).outcome == Run(fails, h + [Navigate(url)] + [WaitLoad], body).outcome
  {
    var plan := FormHead(url) + body;
    Next(fails, h, plan, Ok);
    assert plan[1..] == [Plain(WaitLoad)] + body;
    Next(fails, h + [Navigate(url)], plan[1..], Ok);
    assert plan[1..][1..] == body;
  }

  /** A form run that gets past the page load is the run of its fields and tail on the loaded page. */
  lemma FieldStopped(fails: (seq<Call>, Call) -> bool, h: seq<Call>, url: string, fields: map<string, string>,
                     submitButton: string, seen: seq<string>, selector: string, later: seq<string>)
    requires forall x :: x in seen + [selector] + later ==> x in fields
    requires !fails(h, Navigate(url)) && !fails(h + [Navigate(url)], WaitLoad)
    ensures After(fails, h, FormPlan(url, fields, submitButton, seen + [selector] + later))
         == After(fails, h + [Navigate(url)] + [WaitLoad],
                  FillSteps(fields, seen) + FieldSteps(selector, fields[selector]) + (FillSteps(fields, later) + FormTail(submitButton)))
    ensures Run(fails, h, FormPlan(url, fields, submitButton, seen + [selector] + later)).outcome
         == Run(fails, h + [Navigate(url)] + [WaitLoad],
                FillSteps(fields, seen) + FieldSteps(selector, fields[selector]) + (FillSteps(fields, later) + FormTail(submitButton))).outcome
  {
    FormBodySplit(fields, submitButton, seen, selector, later);
    AfterHead(fails, h, url, FormBody(fields, submitButton, seen + [selector] + later));
  }

  /** Once the page has loaded and every field is filled, what is left of the form's run is its tail. */
  lemma FormFilled(fails: (seq<Call>, Call) -> bool, h: seq<Call>, url: string, fields: map<string, string>,
                   submitButton: string, order: seq<string>, loaded: seq<Call>)
    requires forall x :: x in order ==> x in fields
    requires !fails(h, Navigate(url)) && !fails(h + [Navigate(url)], WaitLoad)
    requires loaded == h + [Navigate(url)] + [WaitLoad]
    requires Clean(fails, loaded, FillSteps(fields, order))
    ensures After(fails, h, FormPlan(url, fields, submitButton, order))
         == After(fails, loaded + Calls(FillSteps(fields, order)), FormTail(submitButton))
    ensures Run(fails, h, FormPlan(url, fields, submitButton, order)).outcome
         == Run(fails, loaded + Calls(FillSteps(fields, order)), FormTail(submitButton)).outcome
  {
    AfterHead(fails, h, url, FormBody(fields, submitButton, order));
    CleanThen(fails, loaded, FillSteps(fields, order), FormTail(submitButton));
  }

  /** The ways of cutting `done + steps + rest` that filling one field goes through. */
  lemma ThreeSteps(done: seq<Step>, steps: seq<Step>, rest: seq<Step>)
    requires |steps| == 3
    ensures done + steps + rest == done + [steps[0]] + ([steps[1], steps[2]] + rest)
    ensures done + steps + rest == done + [steps[0]] + [steps[1]] + ([steps[2]] + rest)
    ensures done + steps + rest == done + [steps[0]] + [steps[1]] + [steps[2]] + rest
    ensures done + [steps[0]] + [steps[1]] + [steps[2]] == done + steps
  {
    assert steps == [steps[0], steps[1], steps[2]];
  }

  /** Picking `selector` next: the keys seen so far, then it, then any order of the others. */
  lemma EnumerationStep(keys: set<string>, pending: set<string>, seen: seq<string>, selector: string)
    returns (later: seq<string>)
    requires pending <= keys && selector in pending && IsEnumeration(seen, keys - pending)
    ensures IsEnumeration(seen + [selector], keys - (pending - {selector}))
    ensures IsEnumeration(seen + [selector] + later, keys)
  {
    later := Enumerate(pending - {selector});
    EnumerationJoin(seen, keys - pending, [selector], {selector});
    assert keys - pending + {selector} == keys - (pending - {selector});
    EnumerationJoin(seen + [selector], keys - (pending - {selector}), later, pending - {selector});
    assert keys - (pending - {selector}) + (pending - {selector}) == keys;
  }

  /**
   * The body of the field loop: find the field, clear it and type the value, wrapping
   * a failure with the field's selector. `done` is what ran before, `rest` what the
   * plan holds after this field.
   */
  method FillField(b: Browser, selector: string, value: string, ghost h: seq<Call>, ghost done: seq<Step>, ghost rest: seq<Step>)
    returns (r: Outcome)
    requires Clean(b.fails, h, done) && b.trace == h + Calls(done)
    modifies b
    ensures r.Ok? ==> Clean(b.fails, h, done + FieldSteps(selector, value))
    ensures r.Ok? ==> b.trace == h + Calls(done + FieldSteps(selector, value))
    ensures r.Fail? ==> b.trace == h + Run(b.fails, h, done + FieldSteps(selector, value) + rest).calls
    ensures r.Fail? ==> r == Run(b.fails, h, done + FieldSteps(selector, value) + rest).outcome
  {
    ghost var steps := FieldSteps(selector, value);
    ThreeSteps(done, steps, rest);
    var field;
    field, r := b.Find(selector);
    Take(b.fails, h, done, steps[0], [steps[1], steps[2]] + rest, r);
    if r.Fail? {
      r := Fail(FieldFailed(selector, r.error));
      return;
    }
    r := b.Clear(field);
    Take(b.fails, h, done + [steps[0]], steps[1], [steps[2]] + rest, r);
    if r.Fail? {
      r := Fail(FieldFailed(selector, r.error));
      return;
    }
    r := b.Input(field, value);
    Take(b.fails, h, done + [steps[0]] + [steps[1]], steps[2], rest, r);
    if r.Fail? {
      r := Fail(FieldFailed(selector, r.error));
      return;
    }
  }

  /** The end of a form task: press the submit button when one is named, then wait for the page. */
  method SubmitForm(submitButton: string, b: Browser) returns (r: Outcome)
    modifies b
    ensures b.trace == old(b.trace) + Run(b.fails, old(b.trace), FormTail(submitButton)).calls
    ensures r == Run(b.fails, old(b.trace), FormTail(submitButton)).outcome
  {
    ghost var t, rest := b.trace, FormTail(submitButton);
    if submitButton != "" {
      var submitBtn;
      submitBtn, r := b.Find(submitButton);
      Next(b.fails, t, rest, r);
      if r.Fail? {
        r := Fail(SubmitNotFound(submitButton, r.error));
        return;
      }
      t, rest := b.trace, rest[1..];
      r := b.Click(submitBtn);
      Next(b.fails, t, rest, r);
      if r.Fail? {
        r := Fail(SubmitClickFailed(r.error));
        return;
      }
      t, rest := b.trace, rest[1..];
    }
    r := b.WaitLoad();
    Next(b.fails, t, rest, r);
  }

  method ExecuteFormFill(url: string, fields: map<string, string>, submitButton: string, b: Browser)
    returns (r: Outcome, ghost order: seq<string>)
    modifies b
    ensures IsEnumeration(order, fields.Keys)
    ensures b.trace == old(b.trace) + Run(b.fails, old(b.trace), FormPlan(url, fields, submitButton, order)).calls
    ensures r == Run(b.fails, old(b.trace), FormPlan(url, fields, submitButton, order)).outcome
  {
    ghost var h, tail := b.trace, FormTail(submitButton);
    order := Enumerate(fields.Keys);
    ghost var plan := FormPlan(url, fields, submitButton, order);
    r := b.Navigate(url);
    Next(b.fails, h, plan, r);
    if r.Fail? { return; }
    r := b.WaitLoad();
    Next(b.fails, h + [plan[0].call], plan[1..], r);
    if r.Fail? { return; }

    ghost var loaded := b.trace;
    CleanStart(b.fails, loaded);
    var pending := fields.Keys;
    ghost var seen: seq<string> := [];
    while pending != {}
      invariant pending <= fields.Keys
      invariant IsEnumeration(seen, fields.Keys - pending)
      invariant Clean(b.fails, loaded, FillSteps(fields, seen))
      invariant b.trace == loaded + Calls(FillSteps(fields, seen))
      decreases pending
    {
      var selector :| selector in pending;
      ghost var later := EnumerationStep(fields.Keys, pending, seen, selector);
      r := FillField(b, selector, fields[selector], loaded, FillSteps(fields, seen), FillSteps(fields, later) + tail);
      if r.Fail? {
        order := seen + [selector] + later;
        FieldStopped(b.fails, h, url, fields, submitButton, seen, selector, later);
        return;
      }
      assert (seen + [selector])[..|seen|] == seen;
      seen := seen + [selector];
      pending := pending - {selector};
    }
    order := seen;
    assert fields.Keys - pending == fields.Keys;
    FormFilled(b.fails, h, url, fields, submitButton, order, loaded);
    r := SubmitForm(submitButton, b);
  }

  method ExecuteNavigation(url: string, b: Browser) returns (r: Outcome)
    modifies b
    ensures b.trace == old(b.trace) + Run(b.fails, old(b.trace), [Plain(Navigate(url)), Plain(WaitLoad)]).calls
    ensures r == Run(b.fails, old(b.trace), [Plain(Navigate(url)), Plain(WaitLoad)]).outcome
  {
    ghost var t, rest := b.trace, [Plain(Navigate(url)), Plain(WaitLoad)];
    r := b.Navigate(url);
    Next(b.fails, t, rest, r);
    if r.Fail? { return; }
    t, rest := b.trace, rest[1..];
    r := b.WaitLoad();
    Next(b.fails, t, rest, r);
  }

  method ExecuteScreenshot(path: string, b: Browser) returns (r: Outcome)
    modifies b
    ensures b.trace == old(b.trace) + Run(b.fails, old(b.trace), [Plain(Screenshot(path))]).calls
    ensures r == Run(b.fails, old(b.trace), [Plain(Screenshot(path))]).outcome
  {
    r := b.Screenshot(path);
    Next(b.fails, old(b.trace), [Plain(Screenshot(path))], r);
  }

  method ExecuteScriptTask(script: string, b: Browser) returns (r: Outcome)
    modifies b
    ensures b.trace == old(b.trace) + Run(b.fails, old(b.trace), [Plain(ExecuteScript(script))]).calls
    ensures r == Run(b.fails, old(b.trace), [Plain(ExecuteScript(script))]).outcome
  {
    r := b.ExecuteScript(script);
    Next(b.fails, old(b.trace), [Plain(ExecuteScript(script))], r);
  }

  /** Waiting makes no browser call and always succeeds (the sleep itself is not modelled). */
  method ExecuteWait(duration: int, b: Browser) returns (r: Outcome)
    ensures r == Ok
  {
    r := Ok;
  }

  /** `Task.Execute`: run the task's call sequence against the browser, stopping at the first failure. */
  method Execute(t: Task, b: Browser) returns (r: Outcome, ghost order: seq<string>)
    modifies b
    ensures OrderFits(t.work, order)
    ensures b.trace == old(b.trace) + Run(b.fails, old(b.trace), Plan(t.work, order)).calls
    ensures r == Run(b.fails, old(b.trace), Plan(t.work, order)).outcome
  {
    order := [];
    match t.work
    case LoginTask(url, username, password) =>
      r := ExecuteLogin(url, username, password, b);
    case SearchTask(url, query, input, button) =>
      r := ExecuteSearch(url, query, input, button, b);
    case FormFillTask(url, _, fields, submit) =>
      r, order := ExecuteFormFill(url, fields, submit, b);
    case NavigationTask(url) =>
      r := ExecuteNavigation(url, b);
    case ScreenshotTask(path) =>
      r := ExecuteScreenshot(path, b);
    case ScriptTask(script) =>
      r := ExecuteScriptTask(script, b);
    case WaitTask(duration) =>
      r := ExecuteWait(duration, b);
  }

  // ---------------------------------------------------------------------------
  // What the plans promise.

  /** A navigation whose `Navigate` fails makes no further call and returns that error. */
  lemma NavigationStopsEarly(fails: (seq<Call>, Call) -> bool, h: seq<Call>, url: string)
    requires fails(h, Navigate(url))
    ensures Run(fails, h, Plan(NavigationTask(url), [])) == Effect([Navigate(url)], Fail(CallFailed(Navigate(url))))
  {
  }

  /** Screenshot and script tasks make exactly one call; a wait task makes none and succeeds. */
  lemma SingleCallTasks(fails: (seq<Call>, Call) -> bool, h: seq<Call>, path: string, script: string, d: int)
    ensures Run(fails, h, Plan(ScreenshotTask(path), [])) == Effect([Screenshot(path)], Reply(fails, h, Screenshot(path)))
    ensures Run(fails, h, Plan(ScriptTask(script), [])) == Effect([ExecuteScript(script)], Reply(fails, h, ExecuteScript(script)))
    ensures Run(fails, h, Plan(WaitTask(d), [])) == Effect([], Ok)
  {
  }

  /** The form selector plays no part in what a form task does. */
  lemma FormSelectorUnused(url: string, s1: string, s2: string, fields: map<string, string>, submitButton: string, order: seq<string>)
    requires OrderFits(FormFillTask(url, s1, fields, submitButton), order)
    ensures OrderFits(FormFillTask(url, s2, fields, submitButton), order)
    ensures Plan(FormFillTask(url, s1, fields, submitButton), order) == Plan(FormFillTask(url, s2, fields, submitButton), order)
  {
  }

  /** The errors a form task can return: a page error, a field error naming a field, or a submit error. */
  predicate FormFailure(e: Error, url: string, fields: map<string, string>, submitButton: string)
  {
    match e
    case CallFailed(c) => c == Navigate(url) || c == WaitLoad
    case FieldFailed(selector, cause) =>
      && selector in fields
      && (|| cause == CallFailed(Find(selector))
          || cause == CallFailed(Clear(selector))
          || cause == CallFailed(Input(selector, fields[selector])))
    case SubmitNotFound(selector, cause) =>
      submitButton != "" && selector == submitButton && cause == CallFailed(Find(submitButton))
    case SubmitClickFailed(cause) =>
      submitButton != "" && cause == CallFailed(Click(submitButton))
    case _ => false
  }

  lemma {:induction false} FillStepsFailures(url: string, fields: map<string, string>, submitButton: string,
                                             order: seq<string>, i: nat)
    requires forall x :: x in order ==> x in fields
    requires i < |FillSteps(fields, order)|
    ensures FormFailure(FillSteps(fields, order)[i].onFail, url, fields, submitButton)
    ensures !FillSteps(fields, order)[i].call.Click?
    decreases |order|
  {
    var init := order[..|order| - 1];
    assert forall x :: x in init ==> x in order;
    if i < 3 * |init| {
      FillStepsFailures(url, fields, submitButton, init, i);
    }
  }

  /** Every step of a form plan fails with a `FormFailure`; without a submit button none of them clicks. */
  lemma FormStepFailures(url: string, fields: map<string, string>, submitButton: string, order: seq<string>, i: nat)
    requires forall x :: x in order ==> x in fields
    requires i < |FormPlan(url, fields, submitButton, order)|
    ensures FormFailure(FormPlan(url, fields, submitButton, order)[i].onFail, url, fields, submitButton)
    ensures submitButton == "" ==> !FormPlan(url, fields, submitButton, order)[i].call.Click?
  {
    var plan := FormPlan(url, fields, submitButton, order);
    var fill, tail := FillSteps(fields, order), FormTail(submitButton);
    assert plan == FormHead(url) + fill + tail;
    if i < 2 {
      assert plan[i] == FormHead(url)[i];
    } else if i < 2 + |fill| {
      FillStepsFailures(url, fields, submitButton, order, i - 2);
      assert plan[i] == fill[i - 2];
    } else {
      assert plan[i] == tail[i - 2 - |fill|];
    }
  }

  /** A failing form task returns one of the errors `FormFailure` allows. */
  lemma FormErrors(fails: (seq<Call>, Call) -> bool, h: seq<Call>, url: string, fields: map<string, string>,
                   submitButton: string, order: seq<string>)
    requires IsEnumeration(order, fields.Keys)
    requires Run(fails, h, FormPlan(url, fields, submitButton, order)).outcome.Fail?
    ensures FormFailure(Run(fails, h, FormPlan(url, fields, submitButton, order)).outcome.error, url, fields, submitButton)
  {
    var plan := FormPlan(url, fields, submitButton, order);
    RunFails(fails, h, plan);
    FormStepFailures(url, fields, submitButton, order, |Run(fails, h, plan).calls| - 1);
  }

  /** Without a submit button, a form task never clicks anything. */
  lemma NoSubmitNoClick(fails: (seq<Call>, Call) -> bool, h: seq<Call>, url: string, fields: map<string, string>,
                        order: seq<string>)
    requires IsEnumeration(order, fields.Keys)
    ensures forall c :: c in Run(fails, h, FormPlan(url, fields, "", order)).calls ==> !c.Click?
  {
    var plan := FormPlan(url, fields, "", order);
    var calls := Run(fails, h, plan).calls;
    RunCallsPrefix(fails, h, plan);
    forall c | c in calls
      ensures !c.Click?
    {
      var k :| 0 <= k < |calls| && calls[k] == c;
      CallsAt(plan[..|calls|], k);
      FormStepFailures(url, fields, "", order, k);
    }
  }

  /** A form task that succeeds ends with the page load, with or without a submit button. */
  lemma FormEndsWithWait(fails: (seq<Call>, Call) -> bool, h: seq<Call>, url: string, fields: map<string, string>,
                         submitButton: string, order: seq<string>)
    requires IsEnumeration(order, fields.Keys)
    requires Run(fails, h, FormPlan(url, fields, submitButton, order)).outcome.Ok?
    ensures var calls := Run(fails, h, FormPlan(url, fields, submitButton, order)).calls;
            |calls| > 0 && calls[|calls| - 1] == WaitLoad
  {
    var plan := FormPlan(url, fields, submitButton, order);
    RunOk(fails, h, plan);
    RunCallsPrefix(fails, h, plan);
    assert plan[..|plan|] == plan;
    CallsAt(plan, |plan| - 1);
  }

  // ---------------------------------------------------------------------------
  // The task manager.

  /** The errors of the failing runs, in run order. */
  function Failures(effects: seq<Effect>): (errors: seq<Error>)
    ensures |errors| <= |effects|
  {
    if effects == [] then []
    else
      var last := effects[|effects| - 1];
      Failures(effects[..|effects| - 1]) + (if last.outcome.Fail? then [last.outcome.error] else [])
  }

  /** `Failures` keeps the errors of failing runs and drops successful ones, piece by piece. */
  lemma {:induction false} FailuresAppend(a: seq<Effect>, b: seq<Effect>)
    ensures Failures(a + b) == Failures(a) + Failures(b)
    decreases |b|
  {
    if b == [] {
      assert a + b == a;
    } else {
      var n := |b| - 1;
      assert (a + b)[..|a + b| - 1] == a + b[..n];
      FailuresAppend(a, b[..n]);
    }
  }

  /** No errors exactly when every run succeeded. */
  lemma {:induction false} FailuresEmpty(effects: seq<Effect>)
    ensures Failures(effects) == [] <==> forall i :: 0 <= i < |effects| ==> effects[i].outcome.Ok?
  {
    if effects != [] {
      var n := |effects| - 1;
      FailuresEmpty(effects[..n]);
      assert forall i :: 0 <= i < n ==> effects[..n][i] == effects[i];
    }
  }

  /**
   * What running one task does: from the calls made so far, the task and the
   * iteration order it picked, the calls it makes and its result.
   */
  type TaskSemantics = (seq<Call>, Task, seq<string>) --> Effect

  /** `Task.Execute` against a browser whose failures `fails` decides. */
  ghost function TaskRuns(fails: (seq<Call>, Call) -> bool): TaskSemantics
  {
    (history: seq<Call>, t: Task, order: seq<string>) requires OrderFits(t.work, order) =>
      Run(fails, history, Plan(t.work, order))
  }

  /**
   * `step` agrees with `Task.Execute` wherever the iteration order fits the task:
   * it accepts the order and gives the same calls and result.
   */
  ghost predicate ExecutesTasks(step: TaskSemantics, fails: (seq<Call>, Call) -> bool)
  {
    forall history: seq<Call>, t: Task, order: seq<string> {:trigger Run(fails, history, Plan(t.work, order))} ::
      OrderFits(t.work, order) ==>
        && step.requires(history, t, order)
        && step(history, t, order) == Run(fails, history, Plan(t.work, order))
  }

  lemma TaskRunsExecutesTasks(fails: (seq<Call>, Call) -> bool)
    ensures ExecutesTasks(TaskRuns(fails), fails)
  {
  }

  /**
   * Each task of `tasks` ran once, in list order: task `n`, with iteration order
   * `orders[n]`, ran on the trace left by the tasks before it.
   */
  ghost predicate Ran(step: TaskSemantics, history: seq<Call>, tasks: seq<Task>,
                      orders: seq<seq<string>>, effects: seq<Effect>)
    decreases |tasks|
  {
    && |orders| == |effects| == |tasks|
    && (tasks != [] ==>
          var n := |tasks| - 1;
          && Ran(step, history, tasks[..n], orders[..n], effects[..n])
          && OrderFits(tasks[n].work, orders[n])
          && step.requires(history + AllCalls(effects[..n]), tasks[n], orders[n])
          && effects[n] == step(history + AllCalls(effects[..n]), tasks[n], orders[n]))
  }

  /** Running task `i` after the first `i` extends `Ran`, and adds its error, if any, to the failures. */
  lemma RanStep(step: TaskSemantics, history: seq<Call>, tasks: seq<Task>, i: nat,
                orders: seq<seq<string>>, effects: seq<Effect>, order: seq<string>, e: Effect)
    requires i < |tasks|
    requires Ran(step, history, tasks[..i], orders, effects)
    requires OrderFits(tasks[i].work, order)
    requires step.requires(history + AllCalls(effects), tasks[i], order)
    requires e == step(history + AllCalls(effects), tasks[i], order)
    ensures Ran(step, history, tasks[..i + 1], orders + [order], effects + [e])
    ensures history + AllCalls(effects + [e]) == history + AllCalls(effects) + e.calls
    ensures e.outcome.Fail? ==> Failures(effects + [e]) == Failures(effects) + [e.outcome.error]
    ensures e.outcome.Ok? ==> Failures(effects + [e]) == Failures(effects)
  {
    assert tasks[..i + 1][..i] == tasks[..i];
    assert history + (AllCalls(effects) + e.calls) == history + AllCalls(effects) + e.calls;
    assert (orders + [order])[..i] == orders;
    assert (effects + [e])[..i] == effects;
    assert Failures(effects) + [] == Failures(effects);
  }

  /** `Ran`, task by task. */
  lemma {:induction false} RanAt(step: TaskSemantics, history: seq<Call>, tasks: seq<Task>,
                                 orders: seq<seq<string>>, effects: seq<Effect>, i: nat)
    requires Ran(step, history, tasks, orders, effects)
    requires i < |tasks|
    ensures OrderFits(tasks[i].work, orders[i])
    ensures step.requires(history + AllCalls(effects[..i]), tasks[i], orders[i])
    ensures effects[i] == step(history + AllCalls(effects[..i]), tasks[i], orders[i])
    decreases |tasks|
  {
    var n := |tasks| - 1;
    if i < n {
      RanAt(step, history, tasks[..n], orders[..n], effects[..n], i);
      assert effects[..n][..i] == effects[..i];
    }
  }

  /**
   * Whatever semantics agreeing with `Task.Execute` the record was written with,
   * task `i` made exactly the calls of the fail-fast run of its plan, on the trace
   * the tasks before it left, and returned that run's result.
   */
  lemma RanRuns(step: TaskSemantics, fails: (seq<Call>, Call) -> bool, history: seq<Call>, tasks: seq<Task>,
                orders: seq<seq<string>>, effects: seq<Effect>, i: nat)
    requires ExecutesTasks(step, fails)
    requires Ran(step, history, tasks, orders, effects)
    requires i < |tasks|
    ensures OrderFits(tasks[i].work, orders[i])
    ensures effects[i] == Run(fails, history + AllCalls(effects[..i]), Plan(tasks[i].work, orders[i]))
  {
    RanAt(step, history, tasks, orders, effects, i);
  }

  /** `Task.Execute`, seen through a semantics that agrees with it. */
  method ExecuteStep(t: Task, b: Browser, ghost step: TaskSemantics) returns (r: Outcome, ghost order: seq<string>, ghost e: Effect)
    requires ExecutesTasks(step, b.fails)
    modifies b
    ensures OrderFits(t.work, order)
    ensures step.requires(old(b.trace), t, order) && e == step(old(b.trace), t, order)
    ensures b.trace == old(b.trace) + e.calls && r == e.outcome
  {
    r, order := Execute(t, b);
    e := step(old(b.trace), t, order);
  }

  /**
   * One turn of the task loop: task `i` runs on the trace left by the first `i`,
   * and its error, if any, is appended to the errors.
   */
  method ExecuteNext(tasks: seq<Task>, i: nat, b: Browser, ghost step: TaskSemantics, ghost history: seq<Call>,
                     errors: seq<Error>, ghost orders: seq<seq<string>>, ghost effects: seq<Effect>)
    returns (errors': seq<Error>, ghost orders': seq<seq<string>>, ghost effects': seq<Effect>)
    requires ExecutesTasks(step, b.fails)
    requires i < |tasks|
    requires Ran(step, history, tasks[..i], orders, effects)
    requires b.trace == history + AllCalls(effects)
    requires errors == Failures(effects)
    modifies b
    ensures Ran(step, history, tasks[..i + 1], orders', effects')
    ensures b.trace == history + AllCalls(effects')
    ensures errors' == Failures(effects')
  {
    var r;
    ghost var order, e;
    r, order, e := ExecuteStep(tasks[i], b, step);
    RanStep(step, history, tasks, i, orders, effects, order, e);
    errors' := errors;
    if r.Fail? {
      errors' := errors' + [r.error];
    }
    effects', orders' := effects + [e], orders + [order];
  }

  class TaskManager {
    var tasks: seq<Task>

    constructor ()
      ensures tasks == []
    {
      tasks := [];
    }

    method AddTask(task: Task)
      modifies this
      ensures tasks == old(tasks) + [task]
    {
      tasks := tasks + [task];
    }

    method ClearTasks()
      modifies this
      ensures tasks == []
    {
      tasks := [];
    }

    /**
     * Runs every task once, in list order, whatever the earlier ones returned:
     * task `i` runs on the trace left by tasks `0..i`, and the result is the
     * errors of the failing tasks, in order.
     */
    method ExecuteTasks(b: Browser, ghost step: TaskSemantics)
      returns (errors: seq<Error>, ghost orders: seq<seq<string>>, ghost effects: seq<Effect>)
      requires ExecutesTasks(step, b.fails)
      modifies b
      ensures Ran(step, old(b.trace), tasks, orders, effects)
      ensures b.trace == old(b.trace) + AllCalls(effects)
      ensures errors == Failures(effects)
    {
      errors, orders, effects := [], [], [];
      for i := 0 to |tasks|
        invariant Ran(step, old(b.trace), tasks[..i], orders, effects)
        invariant b.trace == old(b.trace) + AllCalls(effects)
        invariant errors == Failures(effects)
      {
        errors, orders, effects := ExecuteNext(tasks, i, b, step, old(b.trace), errors, orders, effects);
      }
      assert tasks[..|tasks|] == tasks;
    }
  }
}

=== FILE: text.dfy ===
/**
 * The few operations of Go's `strings` package that the command language uses,
 * on strings as sequences of characters, plus Go's zero-value map lookup.
 */
module Text {

  datatype Option<+T> = None | Some(value: T)

  /** Go's `m[k]` on a `map[string]string`: the stored value, or "" for a missing key. */
  function Lookup(m: map<string, string>, k: string): string
  {
    if k in m then m[k] else ""
  }

  /** Position of the first occurrence of `c` in `s`. */
  function IndexOf(s: string, c: char): (i: nat)
    requires c in s
    ensures i < |s| && s[i] == c && c !in s[..i]
  {
    if s[0] == c then 0 else 1 + IndexOf(s[1..], c)
  }

  /** `strings.Split(s, string(sep))`: the pieces between separators, never an empty list. */
  function Split(s: string, sep: char): (parts: seq<string>)
    ensures |parts| >= 1
    ensures forall i :: 0 <= i < |parts| ==> sep !in parts[i]
    decreases |s|
  {
    if sep !in s then [s]
    else
      var i := IndexOf(s, sep);
      [s[..i]] + Split(s[i + 1..], sep)
  }

  /** `strings.Join(parts, string(sep))`. */
  function Join(parts: seq<string>, sep: char): string
  {
    if parts == [] then ""
    else if |parts| == 1 then parts[0]
    else parts[0] + [sep] + Join(parts[1..], sep)
  }

  /** Splitting and joining again gives back the original text. */
  lemma {:induction false} JoinSplit(s: string, sep: char)
    ensures Join(Split(s, sep), sep) == s
    decreases |s|
  {
    if sep in s {
      var i := IndexOf(s, sep);
      var tail := Split(s[i + 1..], sep);
      JoinSplit(s[i + 1..], sep);
      var parts := [s[..i]] + tail;
      assert Split(s, sep) == parts;
      assert parts[1..] == tail;
      assert Join(parts, sep) == s[..i] + [sep] + Join(tail, sep);
      assert s == s[..i] + [sep] + s[i + 1..];
    }
  }

  /** Joining pieces free of the separator and splitting again gives back the pieces. */
  lemma {:induction false} SplitJoin(parts: seq<string>, sep: char)
    requires |parts| >= 1
    requires forall i :: 0 <= i < |parts| ==> sep !in parts[i]
    ensures Split(Join(parts, sep), sep) == parts
  {
    if |parts| > 1 {
      var s := Join(parts, sep);
      var rest := Join(parts[1..], sep);
      assert s == parts[0] + [sep] + rest;
      assert s[|parts[0]|] == sep;
      assert s[..|parts[0]|] == parts[0];
      var i := IndexOf(s, sep);
      assert i == |parts[0]|;
      assert s[i + 1..] == rest;
      SplitJoin(parts[1..], sep);
    }
  }

  /** `strings.SplitN(s, string(c), 2)` when it yields two pieces: the text before the
      first `c` and everything after it; `None` when `c` does not occur. */
  function Cut(s: string, c: char): (r: Option<(string, string)>)
    ensures r.None? <==> c !in s
    ensures r.Some? ==> c !in r.value.0 && r.value.0 + [c] + r.value.1 == s
  {
    if c !in s then None
    else
      var i := IndexOf(s, c);
      assert s == s[..i] + [c] + s[i + 1..];
      Some((s[..i], s[i + 1..]))
  }

  /** The two pieces of `Cut` are the only ones a first-occurrence split can produce. */
  lemma CutUnique(s: string, c: char, a: string, b: string)
    requires c !in a && s == a + [c] + b
    ensures Cut(s, c) == Some((a, b))
  {
    var i := IndexOf(s, c);
    assert s[|a|] == c;
    assert forall j :: 0 <= j < |a| ==> s[j] == a[j];
    assert i == |a|;
    assert s[..i] == a;
    assert s[i + 1..] == b;
  }

  /** ASCII case mapping of `strings.ToLower`. */
  function LowerChar(c: char): char
  {
    if 'A' <= c <= 'Z' then (c as int + 32) as char else c
  }

  function ToLower(s: string): string
  {
    seq(|s|, i requires 0 <= i < |s| => LowerChar(s[i]))
  }

  /** Go's `unicode.IsSpace`, the predicate `strings.TrimSpace` trims by. */
  predicate IsSpace(c: char)
  {
    || '\t' <= c <= '\r'
    || c == ' ' || c == '\U{0085}' || c == '\U{00A0}' || c == '\U{1680}'
    || '\U{2000}' <= c <= '\U{200A}'
    || c == '\U{2028}' || c == '\U{2029}' || c == '\U{202F}' || c == '\U{205F}' || c == '\U{3000}'
  }

  function TrimLeft(s: string): (r: string)
    ensures |r| <= |s| && r == s[|s| - |r|..]
    ensures r == [] || !IsSpace(r[0])
    ensures forall j :: 0 <= j < |s| - |r| ==> IsSpace(s[j])
  {
    if s != [] && IsSpace(s[0]) then TrimLeft(s[1..]) else s
  }

  function TrimRight(s: string): (r: string)
    ensures |r| <= |s| && r == s[..|r|]
    ensures r == [] || !IsSpace(r[|r| - 1])
    ensures forall j :: |r| <= j < |s| ==> IsSpace(s[j])
  {
    if s != [] && IsSpace(s[|s| - 1]) then TrimRight(s[..|s| - 1]) else s
  }

  /** Storing a key's own value again leaves a map unchanged. */
  lemma UpdateSame(m: map<string, string>, k: string)
    requires k in m
    ensures m[k := m[k]] == m
  {
  }

  /** `strings.TrimSpace`: the text without leading and trailing white space. */
  function TrimSpace(s: string): (r: string)
    ensures r == [] || (!IsSpace(r[0]) && !IsSpace(r[|r| - 1]))
  {
    TrimRight(TrimLeft(s))
  }

  /**
   * The trimmed text is one contiguous piece of the input, and everything dropped
   * before and after it is white space.
   */
  lemma TrimSpaceMeaning(s: string)
    ensures var r := TrimSpace(s);
            exists i :: 0 <= i <= |s| && |r| <= |s[i..]| && r == s[i..][..|r|]
                     && (forall k :: 0 <= k < i ==> IsSpace(s[k]))
                     && (forall k :: |r| <= k < |s[i..]| ==> IsSpace(s[i..][k]))
  {
    var l := TrimLeft(s);
    var r := TrimRight(l);
    var i := |s| - |l|;
    assert s[i..] == l;
    assert r == l[..|r|];
    assert TrimSpace(s) == r;
    assert forall k :: 0 <= k < i ==> IsSpace(s[k]);
    assert forall k :: |r| <= k < |l| ==> IsSpace(l[k]);
    assert 0 <= i <= |s| && |r| <= |s[i..]| && r == s[i..][..|r|]
           && (forall k :: 0 <= k < i ==> IsSpace(s[k]))
           && (forall k :: |r| <= k < |s[i..]| ==> IsSpace(s[i..][k]));
  }

  /** A text without surrounding white space is its own trimming; so trimming is idempotent. */
  lemma TrimSpaceFixed(s: string)
    requires s == [] || (!IsSpace(s[0]) && !IsSpace(s[|s| - 1]))
    ensures TrimSpace(s) == s
  {
  }

  lemma TrimSpaceIdempotent(s: string)
    ensures TrimSpace(TrimSpace(s)) == TrimSpace(s)
  {
    TrimSpaceFixed(TrimSpace(s));
  }

  /** `xs` lists every element of `s` exactly once, in some order (Go's map iteration). */
  ghost predicate IsEnumeration(xs: seq<string>, s: set<string>)
  {
    && (forall i, j :: 0 <= i < j < |xs| ==> xs[i] != xs[j])
    && (forall x :: x in xs <==> x in s)
  }

  /** Some enumeration of a finite set. */
  ghost function Enumerate(s: set<string>): (xs: seq<string>)
    ensures IsEnumeration(xs, s)
    decreases s
  {
    if s == {} then []
    else
      var x :| x in s;
      var xs := Enumerate(s - {x}) + [x];
      assert forall i :: 0 <= i < |xs| - 1 ==> xs[i] in s - {x};
      xs
  }

  /** Enumerations of disjoint sets concatenate to an enumeration of their union. */
  lemma EnumerationJoin(xs: seq<string>, a: set<string>, ys: seq<string>, b: set<string>)
    requires IsEnumeration(xs, a) && IsEnumeration(ys, b) && a !! b
    ensures IsEnumeration(xs + ys, a + b)
  {
    var zs := xs + ys;
    forall i, j | 0 <= i < j < |zs|
      ensures zs[i] != zs[j]
    {
      if j < |xs| {
      } else if i >= |xs| {
        assert zs[i] == ys[i - |xs|] && zs[j] == ys[j - |xs|];
      } else {
        assert zs[i] in a && zs[j] == ys[j - |xs|] && zs[j] in b;
      }
    }
  }

  predicate HasPrefix(s: string, p: string)
  {
    |p| <= |s| && s[..|p|] == p
  }

  predicate HasSuffix(s: string, x: string)
  {
    |x| <= |s| && s[|s| - |x|..] == x
  }

  lemma PrefixSplit(s: string, p: string)
    requires HasPrefix(s, p)
    ensures p + s[|p|..] == s
  {
  }

  lemma PrefixOfConcat(p: string, n: string)
    ensures HasPrefix(p + n, p) && (p + n)[|p|..] == n
  {
  }

  function TrimPrefix(s: string, p: string): string
  {
    if HasPrefix(s, p) then s[|p|..] else s
  }

  /** `strings.TrimSuffix`: the text is left unchanged exactly when it lacks the (non-empty) suffix. */
  function TrimSuffix(s: string, x: string): (r: string)
    ensures |r| <= |s| && r == s[..|r|]
    ensures r == s <==> x == [] || !HasSuffix(s, x)
  {
    if HasSuffix(s, x) then s[..|s| - |x|] else s
  }
}
